=== FILE: README.md ===
# shorts_generator core, modelled in Dafny

shorts_generator turns a topic and a Python library name into a vertical short
video. A code listing is shown one highlighted block at a time, with each block
narrated by a synthesised voice clip. This project models the deterministic
core of that pipeline and proves properties about it:

- **Script text processing** (`ScriptProcessing`, over the string helpers in
  `Text` and the filter in `Lists`):
  - numbering the lines of the listing and undoing it;
  - cleaning the model's code answer up to the formatting step;
  - parsing the `start|end|description` highlight table into
    `ScriptCodeHighlight` records, with Python's `int()` on the first two fields.
- **Highlight geometry** (`Geometry`):
  - centring the code image on the 1080x1920 canvas with floor division;
  - the rounded highlight rectangle of each frame, in exact rational
    arithmetic, for both generations of `generate_frame`.
- **Audio** (`Audio`):
  - the `int(length) + 1` duration rounding;
  - both versions of `generate_audio`: the one that reuses an existing file
    and the one that always synthesises;
  - the concat list of `combine_audio_clips`.
- **Video assembly** (`Video`, `Commands` and `Sync`). `generate_video` exists
  in two generations:
  - `Current`, from `src/video_processing.py`: it has an intro segment and
    fixed output paths;
  - `Legacy`, from `src/video_generation.py`: it has no intro and writes its
    combined audio and final video under fresh `uuid4` names, which are
    parameters here.

  Each `subprocess.run(..., check=True)` and each file write becomes a
  `Command`. A run is a plan of commands. `Commands.Execute` interprets the
  plan against the set of commands that fail. The plan ends where Python would
  raise `AttributeError` on a missing voice clip.

The main results:

- **Encodes.** A completed run encodes exactly one still clip per segment, in
  playback order. Each clip is held for its own voice clip's duration.
- **Concat lists.** Line `k` of the video concat list names clip `k`. Line `k`
  of the audio concat list names the voice clip of the same segment. The
  current generation writes only the clip's base name, which ffmpeg looks up
  next to the list, in `./assets/audio/`; the legacy one writes the full path.
  Names are written without escaping, so a name holding a quote or a line end
  (`\n`, `\r` or NUL, at each of which ffmpeg's list reader ends a line) does
  not read back.
- **Duration.** The `-t` durations of the still clips add up to the total
  duration of the voice clips.
- **Mux.** The last command muxes the two combined files with offset 0.
- **Missing clip.** A script with a missing voice clip stops at the first such
  segment and never reaches a concat or the mux.

The pipeline checks no voice clips before it starts: a missing clip only fails
where its duration is read, after earlier frames and encodes have run. It also
does no range check on highlight line numbers or counts:

- a non-positive count removes the current generation's box;
- in the legacy generation, the box is still drawn; its height is at most its
  12-pixel padding, and exactly the padding for a zero count.

The code validates none of these inputs, and the model follows the code.

## Model

| member | source | states |
|---|---|---|
| ScriptProcessing.AnnoteLineNumbers | src/script_processing.py:106-109 | annotation keeps the number of `\n`-separated lines, and output line i is the decimal form of i+1, then `": "`, then input line i |
| ScriptProcessing.AnnotationRoundTrip | src/script_processing.py:106-109 | dropping each line's prefix up to the first `": "` and rejoining with `\n` gives back the original listing, for every listing |
| ScriptProcessing.DropNumberedLine | src/script_processing.py:108 | the first `": "` of a numbered line is the one right after the number, so removing through it recovers the line, whatever `": "` the line itself contains |
| ScriptProcessing.CleanCode | src/script_processing.py:138-147 | the cleanup fails (Python's `index` raises) exactly when the answer holds no triple backtick; on success the listing neither starts nor ends with a backtick |
| ScriptProcessing.CleanListing | src/script_processing.py:140-147 | after the fence strip, the optional `python` tag, the comment filter and the final strip, neither end of the listing is a backtick |
| ScriptProcessing.CleanCodeTagged | src/script_processing.py:138-147 | for any backtick-free preamble followed by a `python`-tagged fenced block, the result is the block's body with its comment lines dropped and its ends stripped of whitespace and backticks |
| ScriptProcessing.CleanCodeRecoversListing | src/script_processing.py:138-147 | a comment-free body whose ends are neither whitespace nor a backtick, fenced and tagged after any backtick-free preamble, comes back exactly |
| ScriptProcessing.TaggedListing | src/script_processing.py:140-147 | the fences, the `python` tag and the line break before the closing fence do not reach the result |
| ScriptProcessing.FencedStrip | src/script_processing.py:140 | a listing whose ends are not backticks, between two fences, comes out of `strip().strip("`")` unchanged |
| ScriptProcessing.DropCommentsTrailingBreak | src/script_processing.py:145-147 | a line break at the end of the listing does not change the cleaned result |
| ScriptProcessing.DropCommentsKeepsCode | src/script_processing.py:145 | a listing with no comment line passes the comment filter unchanged |
| ScriptProcessing.CleanCodeIgnoresPreamble | src/script_processing.py:138 | everything before the first triple backtick is discarded: prefixing text that contains no fence does not change the result |
| ScriptProcessing.DropComments | src/script_processing.py:144-145 | the result's lines are exactly the non-comment input lines in their input order, or the result is empty when every line was a comment; so no kept line's stripped form starts with `#`, every non-comment line is kept, and every line of a non-empty result is an input line |
| ScriptProcessing.KeptLines | src/script_processing.py:145 | every line the comment filter keeps is a non-comment input line, and every non-comment input line is kept |
| ScriptProcessing.HeaderLineDropped | src/script_processing.py:170-177 | for a fenced, `csv`-tagged table whose first line starts with `start_line_number`, the lines split from the table are the rows' lines and then one empty line from the break before the closing fence: the header is gone |
| ScriptProcessing.RowsKeptWithoutHeader | src/script_processing.py:170-177 | for a fenced, `csv`-tagged table that does not start with `start_line_number`, the lines split from the table are all the rows' lines, then one empty line |
| ScriptProcessing.CsvTagDropped | src/script_processing.py:170-172 | the fences and the `csv` tag of a tagged table are removed, and the line break before the closing fence is kept |
| ScriptProcessing.HeaderDropped | src/script_processing.py:174-175 | a first line starting with `start_line_number` is removed and every later line is kept |
| ScriptProcessing.ParseRow | src/script_processing.py:182-198 | a row is accepted exactly when it has three fields whose first two are integer literals; then line_number = start - 1, line_number + line_count = end, the count is non-positive exactly when end < start, the text is field 3 with `"` and then `'` stripped, and there is no voice clip |
| ScriptProcessing.WrongFieldCountSkipped | src/script_processing.py:177-187 | a line whose stripped form does not hold exactly two pipes is skipped; this covers blank lines and descriptions containing a pipe |
| ScriptProcessing.ParseHighlights | src/script_processing.py:170-202 | parsing never fails; it returns at most one highlight per table line; each highlight comes from some line, every line that parses contributes its highlight, and no highlight has a voice clip |
| ScriptProcessing.ParseKeepsOrder | src/script_processing.py:180-198 | the highlights of two consecutive stretches of lines are those of the first followed by those of the second, so table order is kept |
| ScriptProcessing.SeparatorRejected | src/script_processing.py:178-198 | a row whose start field is a digit followed by one of U+001C to U+001F is skipped: `strip()` would remove the separator, but `int()` does not skip it |
| Text.ParseInt | src/script_processing.py:192-193 | `int()` succeeds exactly on an optional sign followed by ASCII digits with single underscores between digits, after the whitespace `int()` skips is stripped (the `isspace` set without U+001C to U+001F) |
| Text.ParseIntRoundTrip | src/script_processing.py:192-193 | `int(str(n)) == n` for every integer n |
| Text.ParseIntIgnoresWhitespace | src/script_processing.py:192-193 | surrounding whitespace of the kind `int()` skips never changes what it returns |
| Text.Split | src/script_processing.py:107 | `str.split(sep)` returns one more part than there are separators, and no part contains the separator |
| Text.JoinSplit | src/script_processing.py:145 | joining the parts of a split with the same separator gives back the string |
| Text.SplitJoin | src/script_processing.py:109 | splitting a join of separator-free parts gives back the parts |
| Text.StripChars | src/script_processing.py:140 | `strip(chars)` returns a slice `s[i..j]` of its input such that every character before `i` and from `j` on is in the set, and neither end of the slice is in the set |
| Text.StripCharsUnique | src/script_processing.py:140 | any slice with only set characters around it and ends outside the set is the strip: the strip is determined by those two properties |
| Text.StripCharsFrame | src/script_processing.py:140 | stripping a clean-ended middle surrounded by runs of set characters gives the middle |
| Text.StripCharsTrailing | src/script_processing.py:147 | one more set character at the end does not change the strip |
| Text.StripCharsKeepsClean | src/script_processing.py:147 | a string whose ends are outside the set is its own strip |
| Text.StripCharsIdempotent | src/script_processing.py:147 | stripping a second time changes nothing |
| Text.Find | src/script_processing.py:138 | `find` returns the first position where the pattern occurs, and returns nothing exactly when it occurs nowhere |
| Text.BaseName | src/audio_processing.py:32 | `os.path.basename` returns a suffix of the path with no `/`, which is the whole path or follows a `/` |
| Geometry.Centre | src/video_processing.py:76-77 | `(frame - size) // 2` puts the image at an offset whose doubled value is within one pixel of the spare room |
| Geometry.CurrentFrameLayout | src/video_processing.py:67-107 | the code image is centred; there is a box exactly when the line count is positive; the box starts at the image's left edge and is as wide as the image; its top is at y + (371/11)·line_number; its height is (371/11)·line_count + 14; all four radii are 25 |
| Geometry.LegacyFrameLayout | src/video_generation.py:78-117 | the same centring; the box is always drawn, with pitch 373/11 and 12 pixels of padding, so a zero line count still gives a 12-pixel box |
| Geometry.BoxCoversExactly | src/video_processing.py:95-104 | with padding below one pitch, the box contains the band of line j exactly when line_number <= j < line_number + line_count |
| Geometry.CurrentHighlightCoversLines | src/video_processing.py:92-104 | the current box covers exactly the highlighted lines |
| Geometry.LegacyHighlightCoversLines | src/video_generation.py:103-115 | the legacy box covers exactly the highlighted lines, for every block |
| Audio.AudioLength | src/audio_processing.py:41-43 | for a measured length d >= 0, `int(d) + 1` is at least 1, strictly greater than d and at most d + 1 |
| Audio.GenerateAudioCached | src/audio_processing.py:55-70 | synthesis runs exactly when the file is missing; the call succeeds exactly when no command fails; on success it probes then pads to the returned duration, the clip carries the input text and path, and the file's length becomes that duration; no other file changes |
| Audio.CachedRerunAddsASecond | src/audio_processing.py:56-64 | a second call on the same path does not synthesise again, and returns one second more than the first: the operation is not idempotent |
| Audio.GenerateAudioFresh | src/audio_generation.py:37-51 | synthesis runs on every call and is followed by exactly one probe and one pad to the returned duration; the clip carries the input text and path |
| Audio.FreshIgnoresExistingFile | src/audio_generation.py:37-42 | the result does not depend on whether the file already existed |
| Audio.AudioManifest | src/audio_processing.py:29-33 | one `file '<name>'` line per clip in input order; the name is the clip path's base name, holds no `/`, and reads back exactly when it holds no quote or line end |
| Commands.Execute | src/video_processing.py:138 | commands run in plan order; the run stops at the first failing command or missing clip; it succeeds exactly when there is no crash and no reached command fails, and then the log is the whole plan |
| Commands.EntryRoundTrip | src/video_processing.py:156-159 | the name written into a concat-list line `file '<name>'` is read back unchanged exactly when it holds no quote and no line end (`\n`, `\r` or NUL, each of which ends a line for ffmpeg's list reader); otherwise the line names no single file |
| Commands.EntryTargetInverse | src/video_processing.py:156-159 | a line that names a file is the line written for that file, and that name holds no quote or line end |
| Commands.ConcatList | src/audio_processing.py:29-33 | one line per name, in order, and line k reads back as name k exactly when that name can be listed |
| Video.VideoManifest | src/video_processing.py:155-159 | the video concat list has one line per segment, and line k names the clip of playback segment k: the intro first (current generation), then highlight i as `clip_i.mp4` |
| Video.LegacyAudioManifest | src/video_generation.py:139-141 | one `file '<path>'` line per clip, in order, reading back as the clip's full path exactly when that path holds no quote or line end |
| Video.ClipNameListable | src/video_processing.py:157-159 | every clip name, `clip_intro.mp4` or `clip_<i>.mp4`, holds no quote and no line end, so every line of the video list reads back |
| Video.SegmentRunEncodes | src/video_processing.py:140-152 | over voiced highlights the encodes the loop issues are exactly one per highlight, in index order, each held for that highlight's own clip duration and written to that highlight's clip; frame writes add no encode |
| Video.RunEncodesIndexed | src/video_processing.py:140-152 | the encodes collected step by step over highlights i..j agree, position by position, with the encode of highlight i + k at position k |
| Video.HighlightStepsVoiced | src/video_processing.py:140-183 | when every remaining highlight is voiced, the loop never crashes and issues each segment's frame and encode, then the finishing commands over all clips collected |
| Video.HighlightStepsMissing | src/video_processing.py:150 | at the first highlight without a clip, the loop has issued the earlier segments, writes that highlight's frame, and raises for it |
| Video.PlanVoiced | src/video_processing.py:124-183 | a fully voiced plan never crashes and issues the code image, the intro segment (current generation), every highlight's frame and encode in order, and the finishing commands over the clips of all segments |
| Video.PlanMissingIntro | src/video_processing.py:126-137 | without an intro clip the current plan renders the code image and the intro frame, then raises before any encode |
| Video.PlanMissingHighlight | src/video_generation.py:153-165 | with highlight k the first without a clip, the plan issues everything before it, writes the frame of k, and raises for k, before any encode of k |
| Video.PlanCrash | src/video_processing.py:136-150 | a plan runs to the end exactly when every segment has a voice clip; otherwise it stops at the first unvoiced segment |
| Video.CurrentGenerateVideo | src/video_processing.py:124-183 | the run succeeds exactly when every segment is voiced and no command fails; success returns `./assets/clips/final.mp4` after the whole plan; a missing-clip error names the first unvoiced segment |
| Video.LegacyGenerateVideo | src/video_generation.py:149-192 | the same for the legacy generation, returning `videos/<name>.mp4` |
| Sync.PlanEncodes | src/video_processing.py:135-175 | a completed run encodes exactly one still clip per segment, in playback order (intro first in the current generation), each for its own clip's duration |
| Sync.PlanDuration | src/video_processing.py:135-175 | the `-t` durations of the encodes of a completed run add up to the total duration of the segments' voice clips |
| Sync.MatchedSeconds | src/video_processing.py:150-152 | encodes held one to one for clips' durations add up to the clips' total duration |
| Sync.PlanFinish | src/video_processing.py:154-183 | a completed run ends with the finishing commands over the clips of all segments in playback order |
| Sync.FinishShape | src/video_processing.py:154-181 | five finishing commands: each join reads the list written just before it, the two lists are different files, the video list is the segment manifest and the audio list the voice-clip manifest, and the mux takes the two joined outputs from offset 0 into the final path; the video join overwrites, the audio join does not, the mux does only in the current generation; the mux never writes over the joined narration, and writes over the joined clips exactly for a legacy video named `combined` |
| Sync.FinishPaths | src/video_generation.py:127-178 | the two concat lists are different files; the final path differs from the combined narration always and from the combined clips unless a legacy video is named `combined` |
| Sync.Synchronised | src/video_processing.py:155-175 | for every segment k: video-list line k names the file encode k writes; encode k lasts as long as voice clip k; audio-list line k names voice clip k (base name in the current generation, full path in the legacy one) exactly when that name holds no quote or line end; all four sequences have one entry per segment |
| Sync.SegmentRunKinds | src/video_processing.py:140-152 | the highlight loop only writes frames and encodes stills |
| Sync.UnvoicedNeverMuxes | src/video_processing.py:136-183 | with any segment unvoiced, no list is written and no concat or mux runs, so the final video is never produced |
| Sync.NatToStringInjective | src/video_processing.py:152 | distinct indices print differently |
| Sync.ClipNamesDistinct | src/video_processing.py:137-152 | distinct segments write distinct clip files, so no encode overwrites another segment's clip |

## Left out

- The language-model calls that produce the topic description, the code and the highlight table are network I/O, and so is the PyPI documentation fetch. The parsers take the returned text as a parameter.
- `black` formatting of the cleaned code is a foreign formatter. `CleanCode` stops just before it, so `generate_script`, which chains the calls, is not modelled.
- Image rendering is reduced to geometry:
  - pygments/PIL rasterisation of the code image;
  - pixie compositing, fill colours and alpha.

  A code image is its width and height. A frame is the canvas, the image's offset and the optional rounded rectangle.
- ffmpeg, mutagen, ElevenLabs, `tempfile` and `os.rename` are external tools and I/O:
  - each becomes a `Command` that succeeds or fails;
  - the probed length is a parameter;
  - the codec flags of each command are not modelled.
- What `apad` and concat actually produce is not proved. A pad is taken to set the file's length to its target.
- `uuid.uuid4()` names are parameters of the legacy generation.
- `src/main.py` is a demo driver, and `src/script.py` repeats the record declarations. Neither is part of this model.
- Prompt constants, `print` and logging, and the broken `__main__` block of `src/video_generation.py` are not modelled.
- Text.ParseInt: accepts only ASCII digits, while Python's `int()` also accepts other Unicode decimal digits. It also has no length limit, while CPython from 3.11 (and the 3.8.14, 3.9.14 and 3.10.7 security releases) rejects literals of more than 4300 digits by default; the limit is a runtime setting (`PYTHONINTMAXSTRDIGITS`), so it is not fixed by the program.
- Text.ParseIntRoundTrip: holds for every integer in the model; in CPython with the default 4300-digit limit, `str(n)` already raises for integers of more than 4300 digits, so the round trip is promised only below that size there.
- A failed write of a concat list or frame is modelled as a failing command, like a tool failure.
- Audio.AudioManifest: the line holds only the clip's base name, which ffmpeg resolves in the list's directory `./assets/audio/`. The model does not track directories, so it does not prove that this is the file the clip was saved to; it is for clips saved there, as the demo driver does.
- ffmpeg's concat-list escaping (`'\''`) and its reading of a line with a quote inside the name are not modelled. `Commands.EntryTarget` treats such a line, and one that holds a `\n`, `\r` or NUL (where ffmpeg's reader ends the line), as naming no single file.
- The audio joins run ffmpeg without `-y`, so on a second run ffmpeg finds the joined narration already present and does not overwrite it without an answer. The model records the missing `-y` but has no file system across runs; such a failure is one of the failing commands the environment chooses.
- Every tool call is one `subprocess.run(..., shell=True)` string with unquoted paths. The model keeps commands as structured values with each path whole, so a path holding a space or a shell metacharacter, which the shell would split or interpret, is not modelled.
- Geometry: Python computes the line pitch and the box corners in floating point (`371 / 11`, `line_height * line_number`); the model uses exact rationals. The 12- and 14-pixel paddings leave far more slack than the rounding error, so the covers lemmas are unaffected, but the exact float corners are not modelled.
- The legacy code image is reformatted by `black` before rendering, which can raise. That failure is the `RenderCode` command failing.

=== FILE: audio.dfy ===
/**
 The audio stage: `VoiceClip`, `get_audio_length`, `generate_audio` in its
 cached (`src/audio_processing.py`) and uncached (`src/audio_generation.py`)
 forms, and the audio concat list of `src/audio_processing.py`.
 Synthesis, probing and padding are commands that may fail; the lengths
 they produce are given.
 */
module Audio {
  import opened Results
  import opened Text
  import opened Commands

  /** A synthesised narration: its text, the padded MP3, and its length in whole seconds. */
  datatype VoiceClip = VoiceClip(text: string, filePath: string, duration: int)

  /** A length in seconds as mutagen reports it. */
  type Seconds = r: real | 0.0 <= r

  /** The MP3 files present on disk, with their lengths. */
  type Store = map<string, Seconds>

  /** What `generate_audio` did: commands issued, its clip or error, and the files afterwards. */
  datatype AudioRun = AudioRun(log: seq<Command>, result: Result<VoiceClip, Error>, files: Store)

  /** `get_audio_length`: `int(length) + 1`, the next whole second strictly above
      the measured length, even when that length is already whole. */
  function AudioLength(measured: Seconds): (n: int)
    ensures (n - 1) as real <= measured < n as real
    ensures 1 <= n && n as real <= measured + 1.0
  {
    measured.Floor + 1
  }

  /** Measuring and padding the file at `saveAs`, the common tail of both
      `generate_audio` variants. A failed pad leaves the file as it was, since
      the padded copy only replaces it after ffmpeg succeeds. */
  function MeasureAndPad(text: string, saveAs: string, files: Store, fails: set<Command>): AudioRun
    requires saveAs in files
  {
    var dur := AudioLength(files[saveAs]);
    if Probe(saveAs) in fails then
      AudioRun([Probe(saveAs)], Err(ToolFailed(Probe(saveAs))), files)
    else if Pad(saveAs, dur) in fails then
      AudioRun([Probe(saveAs), Pad(saveAs, dur)], Err(ToolFailed(Pad(saveAs, dur))), files)
    else
      AudioRun([Probe(saveAs), Pad(saveAs, dur)], Ok(VoiceClip(text, saveAs, dur)), files[saveAs := dur as real])
  }

  /** `files` and `files'` agree on every path other than `p`. */
  ghost predicate SameElsewhere(files: Store, files': Store, p: string) {
    forall q :: q != p ==> (q in files <==> q in files') && (q in files ==> files[q] == files'[q])
  }

  /** `generate_audio` of `src/audio_processing.py`: synthesis only when no file
      exists at `saveAs`; then the file is measured and padded to the rounded-up
      length, which is the duration the returned clip records. */
  function GenerateAudioCached(text: string, saveAs: string, files: Store, speech: Seconds,
                               fails: set<Command>): (r: AudioRun)
    ensures |r.log| > 0 && (r.log[0] == Synthesize(text, saveAs) <==> saveAs !in files)
    ensures r.result.Ok? <==> forall c :: c in r.log ==> c !in fails
    ensures r.result.Ok? ==>
              var measured := if saveAs in files then files[saveAs] else speech;
              var clip := r.result.value;
              && clip.text == text && clip.filePath == saveAs
              && (clip.duration - 1) as real <= measured < clip.duration as real
              && r.log == (if saveAs in files then [] else [Synthesize(text, saveAs)])
                          + [Probe(saveAs), Pad(saveAs, clip.duration)]
              && r.files == files[saveAs := clip.duration as real]
    ensures r.result.Err? ==> r.files == files || r.files == files[saveAs := speech]
    ensures SameElsewhere(files, r.files, saveAs)
  {
    if saveAs in files then MeasureAndPad(text, saveAs, files, fails)
    else if Synthesize(text, saveAs) in fails then
      AudioRun([Synthesize(text, saveAs)], Err(ToolFailed(Synthesize(text, saveAs))), files)
    else
      var rest := MeasureAndPad(text, saveAs, files[saveAs := speech], fails);
      AudioRun([Synthesize(text, saveAs)] + rest.log, rest.result, rest.files)
  }

  /** `generate_audio` of `src/audio_generation.py`: always synthesises afresh,
      then measures once and pads once to the rounded-up length. */
  function GenerateAudioFresh(text: string, saveAs: string, files: Store, speech: Seconds,
                              fails: set<Command>): (r: AudioRun)
    ensures |r.log| > 0 && r.log[0] == Synthesize(text, saveAs)
    ensures r.result.Ok? <==> forall c :: c in r.log ==> c !in fails
    ensures r.result.Ok? ==>
              var clip := r.result.value;
              && clip.text == text && clip.filePath == saveAs
              && (clip.duration - 1) as real <= speech < clip.duration as real
              && r.log == [Synthesize(text, saveAs), Probe(saveAs), Pad(saveAs, clip.duration)]
              && r.files == files[saveAs := clip.duration as real]
    ensures SameElsewhere(files, r.files, saveAs)
  {
    if Synthesize(text, saveAs) in fails then
      AudioRun([Synthesize(text, saveAs)], Err(ToolFailed(Synthesize(text, saveAs))), files)
    else
      var rest := MeasureAndPad(text, saveAs, files[saveAs := speech], fails);
      AudioRun([Synthesize(text, saveAs)] + rest.log, rest.result, rest.files)
  }

  /** Re-running the cached `generate_audio` on its own output does not resynthesise,
      and re-pads the already whole-second file one second longer: it is not idempotent. */
  lemma CachedRerunAddsASecond(text: string, saveAs: string, files: Store, speech: Seconds,
                               fails: set<Command>, text': string, speech': Seconds, fails': set<Command>)
    requires GenerateAudioCached(text, saveAs, files, speech, fails).result.Ok?
    ensures var first := GenerateAudioCached(text, saveAs, files, speech, fails);
            var second := GenerateAudioCached(text', saveAs, first.files, speech', fails');
            && second.log[0] != Synthesize(text', saveAs)
            && (second.result.Ok? ==> second.result.value.duration == first.result.value.duration + 1)
  {
  }

  /** The uncached variant ignores whatever file is already at `saveAs`. */
  lemma FreshIgnoresExistingFile(text: string, saveAs: string, files: Store, files': Store,
                                 speech: Seconds, fails: set<Command>)
    ensures GenerateAudioFresh(text, saveAs, files, speech, fails).result
            == GenerateAudioFresh(text, saveAs, files', speech, fails).result
  {
  }

  /** Where `combine_audio_clips` of `src/audio_processing.py` writes its list and its output. */
  const AudioListPath := "./assets/audio/concat.txt"
  const CombinedAudioPath := "./assets/audio/combined.mp3"

  /** The audio concat list: one line per clip, in order, naming the clip's file
      by its base name only, which ffmpeg resolves in the list's own directory
      whatever directory the clip was saved in; a name holding a quote or a line
      break does not read back. */
  function AudioManifest(clips: seq<VoiceClip>): (lines: seq<string>)
    ensures |lines| == |clips|
    ensures forall i :: 0 <= i < |clips| ==>
              var name := BaseName(clips[i].filePath);
              && '/' !in name
              && EntryTarget(lines[i]) == if ListableName(name) then Some(name) else None
  {
    ConcatList(seq(|clips|, i requires 0 <= i < |clips| => BaseName(clips[i].filePath)))
  }

  /** `combine_audio_clips` of `src/audio_processing.py`: write the list, then concat
      it without `-y`, to a fixed output path. */
  function CombineAudioClips(clips: seq<VoiceClip>): seq<Command> {
    [WriteList(AudioListPath, AudioManifest(clips)), Concat(AudioListPath, CombinedAudioPath, false)]
  }
}

=== FILE: commands.dfy ===
/**
 External effects of the pipeline as values. Every `subprocess.run(...,
 check=True)`, file write, speech synthesis and audio probe becomes a
 `Command`; a run is a plan of steps, and the environment decides which
 commands fail (exit non-zero, raise). A failure aborts everything after it.
 */
module Commands {
  import opened Results
  import opened Geometry

  /** A narrated segment: the intro, or the highlight at a zero-based index. */
  datatype Segment = Intro | Part(index: nat)

  datatype Command =
    /** pygments rasterises the listing to `image`, which pixie then reads back; the
        legacy generation first reformats the listing with `black` (line length 42),
        which can raise. Either failure is this command failing. */
    | RenderCode(code: string, image: string)
    /** `frame.write_file(path)`. */
    | WriteFrame(path: string, frame: Frame)
    /** `ffmpeg -y -loop 1 -i image -c:v libx264 -t seconds -pix_fmt yuv420p clip`. */
    | EncodeStill(image: string, seconds: int, clip: string)
    /** Writes the concat list `path`, one line per element of `lines`, each ended by a newline. */
    | WriteList(path: string, lines: seq<string>)
    /** `ffmpeg [-y] -f concat -safe 0 -i list -c copy output`; `-y` exactly when `overwrite`. */
    | Concat(list: string, output: string, overwrite: bool)
    /** `ffmpeg -i video -itsoffset offset -i audio -map 0:v -map 1:a -c:v copy -c:a aac [-y] output`:
        the video stream is copied, the audio is encoded to AAC and delayed by `offset` seconds. */
    | Mux(video: string, audio: string, offset: int, output: string, overwrite: bool)
    /** ElevenLabs `client.generate(text=...)` saved to `path`. */
    | Synthesize(text: string, path: string)
    /** mutagen reads the length of the MP3 at `path`. */
    | Probe(path: string)
    /** `ffmpeg -y -i path -af apad=whole_dur=seconds tmp`, then `os.rename(tmp, path)`. */
    | Pad(path: string, seconds: int)

  /** Why a run stops: a command failed, or a `None` voice clip was dereferenced. */
  datatype Error = ToolFailed(command: Command) | MissingVoiceClip(segment: Segment)

  /** One step of a plan: issue a command, or read `.duration` of the `None`
      voice clip of a segment, which raises `AttributeError`. */
  datatype Step = Issue(command: Command) | Crash(segment: Segment)

  /** What a run did: the commands it issued, in order, and how it ended. */
  datatype Attempt<T> = Attempt(log: seq<Command>, result: Result<T, Error>)

  /** The commands a plan issues before its first crash. */
  function Reached(steps: seq<Step>): seq<Command>
    decreases |steps|
  {
    if |steps| == 0 then []
    else match steps[0]
      case Crash(_) => []
      case Issue(c) => [c] + Reached(steps[1..])
  }

  /** The error of a plan's first crash, if it has one. */
  function FirstCrash(steps: seq<Step>): Option<Error>
    decreases |steps|
  {
    if |steps| == 0 then None
    else match steps[0]
      case Crash(s) => Some(MissingVoiceClip(s))
      case Issue(_) => FirstCrash(steps[1..])
  }

  /** Runs a plan: each command in `fails` exits non-zero, which (`check=True`)
      raises and ends the run; a crash step ends it too; otherwise the run
      returns `done`. */
  function Execute<T>(steps: seq<Step>, fails: set<Command>, done: T): (a: Attempt<T>)
    ensures a.log <= Reached(steps)
    ensures forall i :: 0 <= i < |a.log| - 1 ==> a.log[i] !in fails
    ensures a.result.Ok? <==> FirstCrash(steps).None? && forall c :: c in Reached(steps) ==> c !in fails
    ensures a.result.Ok? ==> a.result.value == done && a.log == Reached(steps)
    ensures a.result.Err? && a.result.error.ToolFailed? ==>
              |a.log| > 0 && a.log[|a.log| - 1] == a.result.error.command && a.result.error.command in fails
    ensures a.result.Err? && !a.result.error.ToolFailed? ==>
              FirstCrash(steps) == Some(a.result.error) && a.log == Reached(steps)
              && forall c :: c in a.log ==> c !in fails
    decreases |steps|
  {
    if |steps| == 0 then Attempt([], Ok(done))
    else match steps[0]
      case Crash(s) => Attempt([], Err(MissingVoiceClip(s)))
      case Issue(c) =>
        if c in fails then Attempt([c], Err(ToolFailed(c)))
        else
          var rest := Execute(steps[1..], fails, done);
          Attempt([c] + rest.log, rest.result)
  }

  lemma {:induction false} ReachedAppend(xs: seq<Step>, ys: seq<Step>)
    requires FirstCrash(xs).None?
    ensures Reached(xs + ys) == Reached(xs) + Reached(ys)
    ensures FirstCrash(xs + ys) == FirstCrash(ys)
    decreases |xs|
  {
    if |xs| > 0 {
      assert (xs + ys)[0] == xs[0];
      assert (xs + ys)[1..] == xs[1..] + ys;
      ReachedAppend(xs[1..], ys);
    } else {
      assert xs + ys == ys;
    }
  }

  lemma {:induction false} ReachedAppendCrashing(xs: seq<Step>, ys: seq<Step>)
    requires FirstCrash(xs).Some?
    ensures Reached(xs + ys) == Reached(xs)
    ensures FirstCrash(xs + ys) == FirstCrash(xs)
    decreases |xs|
  {
    assert (xs + ys)[0] == xs[0];
    if xs[0].Issue? {
      assert (xs + ys)[1..] == xs[1..] + ys;
      ReachedAppendCrashing(xs[1..], ys);
    }
  }

  /** The plan that issues `cs` in order. */
  function Issues(cs: seq<Command>): seq<Step> {
    seq(|cs|, i requires 0 <= i < |cs| => Issue(cs[i]))
  }

  /** A plan made only of commands reaches all of them and never crashes. */
  lemma {:induction false} ReachedIssues(cs: seq<Command>)
    ensures Reached(Issues(cs)) == cs && FirstCrash(Issues(cs)).None?
    decreases |cs|
  {
    if |cs| > 0 {
      ReachedIssues(cs[1..]);
      assert Issues(cs)[1..] == Issues(cs[1..]);
      assert [cs[0]] + cs[1..] == cs;
    }
  }

  /** Issuing two runs of commands is issuing their concatenation. */
  lemma IssuesAppend(xs: seq<Command>, ys: seq<Command>)
    ensures Issues(xs + ys) == Issues(xs) + Issues(ys)
  {
  }

  /** Commands issued ahead of a plan are reached first and change nothing about its crash. */
  lemma IssuesThen(cs: seq<Command>, ys: seq<Step>)
    ensures Reached(Issues(cs) + ys) == cs + Reached(ys)
    ensures FirstCrash(Issues(cs) + ys) == FirstCrash(ys)
  {
    ReachedIssues(cs);
    ReachedAppend(Issues(cs), ys);
  }

  /** Commands issued ahead of a plan that reaches `front + back` reach `cmds + front`, then `back`. */
  lemma IssuesThenReaching(cmds: seq<Command>, rest: seq<Step>, front: seq<Command>, back: seq<Command>)
    requires Reached(rest) == front + back
    ensures Reached(Issues(cmds) + rest) == (cmds + front) + back
    ensures FirstCrash(Issues(cmds) + rest) == FirstCrash(rest)
  {
    IssuesThen(cmds, rest);
    assert cmds + (front + back) == (cmds + front) + back;
  }

  /** A line of an ffmpeg concat list: `file '<name>'`, the name written as is. */
  function Entry(name: string): string {
    "file '" + name + "'"
  }

  /** The characters at which ffmpeg's list reader ends a line. */
  predicate IsLineEnd(c: char) {
    c == '\n' || c == '\r' || c == '\0'
  }

  /** A name that survives the unescaped quoting: no quote, which would close the
      quoting early, and no line end, which would split the line. */
  predicate ListableName(name: string) {
    '\'' !in name && forall k :: 0 <= k < |name| ==> !IsLineEnd(name[k])
  }

  /** The file a concat-list line names, if the line is one `file '...'` directive
      quoting a single name. */
  function EntryTarget(line: string): Option<string> {
    if (exists k :: 0 <= k < |line| && IsLineEnd(line[k])) || |line| < 7 || line[..6] != "file '" || line[|line| - 1] != '\'' then None
    else
      var name := line[6..|line| - 1];
      if '\'' in name then None else Some(name)
  }

  /** A concat-list line names exactly the file it was written for, when that name is
      listable, and names nothing otherwise. */
  lemma EntryRoundTrip(name: string)
    ensures EntryTarget(Entry(name)) == if ListableName(name) then Some(name) else None
  {
    var line := Entry(name);
    assert line[..6] == "file '";
    assert line[6..|line| - 1] == name;
    assert (exists k :: 0 <= k < |line| && IsLineEnd(line[k])) <==>
           (exists k :: 0 <= k < |name| && IsLineEnd(name[k])) by {
      forall k | 0 <= k < |name|
        ensures line[6 + k] == name[k]
      {
      }
    }
  }

  /** A concat list naming `names` in order, one line each; every listable name reads back. */
  function ConcatList(names: seq<string>): (lines: seq<string>)
    ensures |lines| == |names|
    ensures forall k :: 0 <= k < |names| ==>
              EntryTarget(lines[k]) == if ListableName(names[k]) then Some(names[k]) else None
  {
    EntriesRoundTrip(names);
    seq(|names|, k requires 0 <= k < |names| => Entry(names[k]))
  }

  lemma EntriesRoundTrip(names: seq<string>)
    ensures forall k :: 0 <= k < |names| ==>
              EntryTarget(Entry(names[k])) == if ListableName(names[k]) then Some(names[k]) else None
  {
    forall k | 0 <= k < |names|
      ensures EntryTarget(Entry(names[k])) == if ListableName(names[k]) then Some(names[k]) else None
    {
      EntryRoundTrip(names[k]);
    }
  }

  /** A line that names a file is the entry written for that file. */
  lemma EntryTargetInverse(line: string, name: string)
    requires EntryTarget(line) == Some(name)
    ensures line == Entry(name) && ListableName(name)
  {
    assert line == line[..6] + line[6..|line| - 1] + [line[|line| - 1]];
    assert forall k :: 0 <= k < |name| ==> name[k] == line[6 + k];
  }

  /** The clip encodes of a log, in the order they were issued. */
  function EncodeOf(c: Command): Option<Command> {
    if c.EncodeStill? then Some(c) else None
  }
}

=== FILE: geometry.dfy ===
/**
 Frame geometry of `generate_frame`: the code image centred on a portrait
 canvas and an optional rounded highlight rectangle over some of its lines.
 Pixels, paint and alpha are not modelled; a frame is its layout.
 Python's `/` on ints yields a float; the model keeps it exact as a `real`.
 */
module Geometry {
  import opened Results

  datatype Size = Size(width: int, height: int)

  datatype Point = Point(x: int, y: int)

  /** The lines a frame highlights: `lineNumber` is zero-based. */
  datatype HighlightedCodeBlock = HighlightedCodeBlock(lineNumber: int, lineCount: int)

  /** Arguments of pixie's `rounded_rect(x, y, w, h, nw, ne, se, sw)`. */
  datatype RoundedRect = RoundedRect(x: real, y: real, width: real, height: real,
                                     nw: real, ne: real, se: real, sw: real)

  /** A rendered frame: the canvas, where the code image sits on it, and the highlight drawn, if any. */
  datatype Frame = Frame(canvas: Size, codeAt: Point, code: Size, highlight: Option<RoundedRect>)

  /** Default `frame_w` x `frame_h` of both generations. */
  const Canvas := Size(1080, 1920)

  const CornerRadius: real := 25.0

  /** Line pitch and rectangle padding of `src/video_processing.py`. */
  const CurrentLinePitch: real := 371.0 / 11.0
  const CurrentPadding: real := 14.0

  /** Line pitch and rectangle padding of `src/video_generation.py`. */
  const LegacyLinePitch: real := 373.0 / 11.0
  const LegacyPadding: real := 12.0

  /** Python's `(outer - inner) // 2`: the floor of half the free space. */
  function Centre(outer: int, inner: int): (offset: int)
    ensures 2 * offset <= outer - inner < 2 * offset + 2
  {
    (outer - inner) / 2
  }

  /** Where the code image's top-left corner lands on the canvas. */
  function Placement(canvas: Size, code: Size): (p: Point)
    ensures p.x <= canvas.width - code.width - p.x <= p.x + 1
    ensures p.y <= canvas.height - code.height - p.y <= p.y + 1
  {
    Point(Centre(canvas.width, code.width), Centre(canvas.height, code.height))
  }

  /** Top edge, on the canvas, of the zero-based code line `j`. */
  function LineTop(at: Point, pitch: real, j: int): real {
    at.y as real + pitch * j as real
  }

  /** Line `j`'s band, from its top to the next line's top, lies inside `r` vertically. */
  predicate BandInside(r: RoundedRect, at: Point, pitch: real, j: int) {
    r.y <= LineTop(at, pitch, j) && LineTop(at, pitch, j + 1) <= r.y + r.height
  }

  /** The rectangle `rounded_rect` receives for `block`, shared by both generations. */
  function HighlightBox(pitch: real, padding: real, at: Point, code: Size, block: HighlightedCodeBlock): RoundedRect {
    RoundedRect(at.x as real + 0.0, LineTop(at, pitch, block.lineNumber), code.width as real,
                pitch * block.lineCount as real + padding,
                CornerRadius, CornerRadius, CornerRadius, CornerRadius)
  }

  /** The box is as wide as the code image, starts at the top of its first line,
      is one pitch per line plus padding high, and has all four radii at 25. */
  predicate IsHighlightBox(r: RoundedRect, at: Point, code: Size, pitch: real, padding: real,
                           block: HighlightedCodeBlock) {
    && r.x == at.x as real
    && r.width == code.width as real
    && r.y == LineTop(at, pitch, block.lineNumber)
    && r.y + r.height == LineTop(at, pitch, block.lineNumber + block.lineCount) + padding
    && r.nw == r.ne == r.se == r.sw == CornerRadius
  }

  /** `generate_frame` of `src/video_processing.py`: a box only for a positive line count. */
  function CurrentFrame(code: Size, block: HighlightedCodeBlock, canvas: Size): Frame {
    var at := Placement(canvas, code);
    var box := if block.lineCount > 0 then Some(HighlightBox(CurrentLinePitch, CurrentPadding, at, code, block)) else None;
    Frame(canvas, at, code, box)
  }

  /** `generate_frame` of `src/video_generation.py`: the box is drawn unconditionally. */
  function LegacyFrame(code: Size, block: HighlightedCodeBlock, canvas: Size): Frame {
    var at := Placement(canvas, code);
    Frame(canvas, at, code, Some(HighlightBox(LegacyLinePitch, LegacyPadding, at, code, block)))
  }

  /** The current frame centres the code image with floor division and carries
      a box exactly when the line count is positive, shaped by the 371/11 pitch
      and 14 pixels of padding. */
  lemma CurrentFrameLayout(code: Size, block: HighlightedCodeBlock, canvas: Size)
    ensures var f := CurrentFrame(code, block, canvas);
            && f.canvas == canvas && f.code == code
            && 2 * f.codeAt.x <= canvas.width - code.width < 2 * f.codeAt.x + 2
            && 2 * f.codeAt.y <= canvas.height - code.height < 2 * f.codeAt.y + 2
            && (f.highlight.Some? <==> block.lineCount > 0)
            && (f.highlight.Some? ==>
                  IsHighlightBox(f.highlight.value, f.codeAt, code, CurrentLinePitch, CurrentPadding, block))
  {
    var f := CurrentFrame(code, block, canvas);
    if block.lineCount > 0 {
      BoxShape(CurrentLinePitch, CurrentPadding, f.codeAt, code, block);
    }
  }

  /** The legacy frame centres the code image the same way and always carries
      a box, shaped by the 373/11 pitch and 12 pixels of padding. */
  lemma LegacyFrameLayout(code: Size, block: HighlightedCodeBlock, canvas: Size)
    ensures var f := LegacyFrame(code, block, canvas);
            && f.canvas == canvas && f.code == code
            && 2 * f.codeAt.x <= canvas.width - code.width < 2 * f.codeAt.x + 2
            && 2 * f.codeAt.y <= canvas.height - code.height < 2 * f.codeAt.y + 2
            && f.highlight.Some?
            && IsHighlightBox(f.highlight.value, f.codeAt, code, LegacyLinePitch, LegacyPadding, block)
  {
    var f := LegacyFrame(code, block, canvas);
    BoxShape(LegacyLinePitch, LegacyPadding, f.codeAt, code, block);
  }

  lemma BoxShape(pitch: real, padding: real, at: Point, code: Size, block: HighlightedCodeBlock)
    requires 0.0 < pitch
    ensures IsHighlightBox(HighlightBox(pitch, padding, at, code, block), at, code, pitch, padding, block)
  {
    PitchSteps(pitch, block.lineNumber + block.lineCount, block.lineNumber);
  }

  /** With padding below one pitch, a box of this shape contains the band of
      line `j` exactly when `j` is one of the block's lines. */
  lemma BoxCoversExactly(r: RoundedRect, at: Point, code: Size, pitch: real, padding: real,
                         block: HighlightedCodeBlock, j: int)
    requires 0.0 <= padding < pitch
    requires IsHighlightBox(r, at, code, pitch, padding, block)
    ensures BandInside(r, at, pitch, j) <==> block.lineNumber <= j < block.lineNumber + block.lineCount
  {
    TopInside(r, at, pitch, block.lineNumber, j);
    BottomInside(r, at, pitch, padding, block.lineNumber + block.lineCount, j);
  }

  /** A box whose top is line `n`'s top starts at or above line `j` exactly when `n <= j`. */
  lemma TopInside(r: RoundedRect, at: Point, pitch: real, n: int, j: int)
    requires 0.0 < pitch && r.y == LineTop(at, pitch, n)
    ensures r.y <= LineTop(at, pitch, j) <==> n <= j
  {
    PitchSteps(pitch, n, j);
  }

  /** A box ending `padding` below line `e`'s top, with `padding` under a pitch, reaches
      the bottom of line `j` exactly when `j < e`. */
  lemma BottomInside(r: RoundedRect, at: Point, pitch: real, padding: real, e: int, j: int)
    requires 0.0 <= padding < pitch && r.y + r.height == LineTop(at, pitch, e) + padding
    ensures LineTop(at, pitch, j + 1) <= r.y + r.height <==> j + 1 <= e
  {
    var k := j + 1;
    PitchSteps(pitch, k, e);
    var below, end := LineTop(at, pitch, k), LineTop(at, pitch, e);
    if k <= e {
      assert below <= end;
    } else {
      assert below >= end + pitch;
    }
  }

  /** Lines `a` and `b` are `a - b` pitches apart, so a gap of one line or more is at least a pitch. */
  lemma PitchSteps(pitch: real, a: int, b: int)
    requires 0.0 < pitch
    ensures pitch * a as real - pitch * b as real == pitch * (a - b) as real
    ensures a > b ==> pitch * a as real >= pitch * b as real + pitch
    ensures a <= b ==> pitch * a as real <= pitch * b as real
  {
    if a > b {
      assert pitch * (a - b) as real >= pitch * 1.0;
    } else {
      assert pitch * (b - a) as real >= 0.0;
    }
  }

  /** In the current generation a drawn box covers exactly the block's lines. */
  lemma CurrentHighlightCoversLines(code: Size, block: HighlightedCodeBlock, canvas: Size, j: int)
    requires block.lineCount > 0
    ensures var f := CurrentFrame(code, block, canvas);
            (BandInside(f.highlight.value, f.codeAt, CurrentLinePitch, j)
             <==> block.lineNumber <= j < block.lineNumber + block.lineCount)
  {
    var f := CurrentFrame(code, block, canvas);
    CurrentFrameLayout(code, block, canvas);
    BoxCoversExactly(f.highlight.value, f.codeAt, code, CurrentLinePitch, CurrentPadding, block, j);
  }

  /** In the legacy generation the box covers exactly the block's lines; for a
      count of zero or less it covers no line, yet it is still drawn. */
  lemma LegacyHighlightCoversLines(code: Size, block: HighlightedCodeBlock, canvas: Size, j: int)
    ensures var f := LegacyFrame(code, block, canvas);
            (BandInside(f.highlight.value, f.codeAt, LegacyLinePitch, j)
             <==> block.lineNumber <= j < block.lineNumber + block.lineCount)
  {
    var f := LegacyFrame(code, block, canvas);
    LegacyFrameLayout(code, block, canvas);
    BoxCoversExactly(f.highlight.value, f.codeAt, code, LegacyLinePitch, LegacyPadding, block, j);
  }
}

=== FILE: lists.dfy ===
/** Python's `[g(x) for x in xs if ...]` pattern: keep, in order, what a partial map accepts. */
module Lists {
  import opened Results

  /** The values `f` produces, in the order of `xs`, skipping the elements it rejects. */
  function FilterMap<T, U>(xs: seq<T>, f: T -> Option<U>): (ys: seq<U>)
    ensures |ys| <= |xs|
    decreases |xs|
  {
    if |xs| == 0 then []
    else
      var rest := FilterMap(xs[1..], f);
      match f(xs[0])
      case Some(y) => [y] + rest
      case None => rest
  }

  /** Everything kept is the image of some element, and every image is kept. */
  lemma {:induction false} FilterMapContents<T, U>(xs: seq<T>, f: T -> Option<U>)
    ensures var ys := FilterMap(xs, f);
            && (forall k :: 0 <= k < |ys| ==> exists j :: 0 <= j < |xs| && f(xs[j]) == Some(ys[k]))
            && (forall j :: 0 <= j < |xs| && f(xs[j]).Some? ==> f(xs[j]).value in ys)
    decreases |xs|
  {
    if |xs| > 0 {
      var ys := FilterMap(xs, f);
      var rest := FilterMap(xs[1..], f);
      FilterMapContents(xs[1..], f);
      assert forall j :: 1 <= j < |xs| ==> xs[j] == xs[1..][j - 1];
      var shift := if f(xs[0]).Some? then 1 else 0;
      assert ys[shift..] == rest;
      forall k | 0 <= k < |ys|
        ensures exists j :: 0 <= j < |xs| && f(xs[j]) == Some(ys[k])
      {
        if k < shift {
          assert f(xs[0]) == Some(ys[k]);
        } else {
          var j :| 0 <= j < |xs[1..]| && f(xs[1..][j]) == Some(rest[k - shift]);
          assert f(xs[j + 1]) == Some(ys[k]);
        }
      }
    }
  }

  /** Filtering distributes over concatenation, so the output keeps the input order. */
  lemma {:induction false} FilterMapAppend<T, U>(xs: seq<T>, ys: seq<T>, f: T -> Option<U>)
    ensures FilterMap(xs + ys, f) == FilterMap(xs, f) + FilterMap(ys, f)
    decreases |xs|
  {
    if |xs| == 0 {
      assert xs + ys == ys;
    } else {
      assert (xs + ys)[1..] == xs[1..] + ys;
      FilterMapAppend(xs[1..], ys, f);
    }
  }

  /** A map that accepts every element unchanged keeps the whole sequence. */
  lemma {:induction false} FilterMapKeepsAll<T>(xs: seq<T>, f: T -> Option<T>)
    requires forall k :: 0 <= k < |xs| ==> f(xs[k]) == Some(xs[k])
    ensures FilterMap(xs, f) == xs
    decreases |xs|
  {
    if |xs| > 0 {
      assert forall k :: 0 <= k < |xs[1..]| ==> xs[1..][k] == xs[k + 1];
      FilterMapKeepsAll(xs[1..], f);
      assert [xs[0]] + xs[1..] == xs;
    }
  }

  /** A single element contributes its image, or nothing when rejected. */
  lemma FilterMapSingle<T, U>(x: T, f: T -> Option<U>)
    ensures FilterMap([x], f) == (match f(x) case Some(y) => [y] case None => [])
  {
    assert [x][1..] == [];
  }

  /** When `f` rejects everything, nothing is kept. */
  lemma {:induction false} FilterMapNone<T, U>(xs: seq<T>, f: T -> Option<U>)
    requires forall j :: 0 <= j < |xs| ==> f(xs[j]).None?
    ensures FilterMap(xs, f) == []
    decreases |xs|
  {
    if |xs| > 0 {
      assert forall j :: 0 <= j < |xs| - 1 ==> xs[1..][j] == xs[j + 1];
      FilterMapNone(xs[1..], f);
    }
  }

  /** A sequence is its first element followed by the rest, shifted by one. */
  lemma ConsShift<T>(e: T, rest: seq<T>, whole: seq<T>)
    requires |whole| == |rest| + 1 && whole[0] == e
    requires forall k :: 0 <= k < |rest| ==> rest[k] == whole[k + 1]
    ensures [e] + rest == whole
  {
  }
}

=== FILE: results.dfy ===
/** Failure-carrying values shared by every module of the model. */
module Results {

  /** A value that may be absent, as Python's `Optional`. */
  datatype Option<T> = None | Some(value: T)

  /** The outcome of an operation that can raise: a value or the error raised. */
  datatype Result<T, E> = Ok(value: T) | Err(error: E)
}

=== FILE: script.dfy ===
/**
 The string processing of `src/script_processing.py`: the `Script` records,
 line-number annotation, cleanup of the generated code listing, and parsing
 of the `|`-separated highlight table. The language-model calls are left
 out; their returned text is the input here.
 */
module ScriptProcessing {
  import opened Results
  import opened Text
  import opened Lists
  import Audio

  /** One highlight: narration text, zero-based first line, number of lines,
      and the voice clip once one has been generated. */
  datatype ScriptCodeHighlight = ScriptCodeHighlight(text: string, lineNumber: int, lineCount: int,
                                                     voiceClip: Option<Audio.VoiceClip>)

  datatype Script = Script(code: string, introText: string, highlights: seq<ScriptCodeHighlight>,
                           ctaText: string, introVoiceClip: Option<Audio.VoiceClip>)

  /** `f"{n}: {line}"`. */
  function NumberedLine(n: nat, line: string): string {
    NatToString(n) + ": " + line
  }

  /** `_annote_line_numbers`: prefix every `\n`-separated line with its one-based number. */
  function AnnoteLineNumbers(code: string): (r: string)
    ensures var lines := Split(code, '\n');
            var out := Split(r, '\n');
            && |out| == |lines|
            && forall i :: 0 <= i < |lines| ==> out[i] == NumberedLine(i + 1, lines[i])
  {
    var lines := Split(code, '\n');
    var numbered := seq(|lines|, i requires 0 <= i < |lines| => NumberedLine(i + 1, lines[i]));
    assert forall i :: 0 <= i < |numbered| ==> '\n' !in numbered[i] by {
      forall i | 0 <= i < |numbered|
        ensures '\n' !in numbered[i]
      {
        var d := NatToString(i + 1);
        assert numbered[i] == d + ": " + lines[i];
        assert forall k :: 0 <= k < |d| ==> d[k] != '\n';
      }
    }
    SplitJoin(numbered, '\n');
    Join(numbered, '\n')
  }

  /** Drops everything up to and including the first `": "` of a line. */
  function DropLineNumber(line: string): string {
    match Find(line, ": ")
    case Some(i) => line[i + 2..]
    case None => line
  }

  /** The inverse of the annotation: drop the number prefix of every line. */
  function StripLineNumbers(annotated: string): string {
    var lines := Split(annotated, '\n');
    Join(seq(|lines|, i requires 0 <= i < |lines| => DropLineNumber(lines[i])), '\n')
  }

  lemma DropNumberedLine(n: nat, line: string)
    ensures DropLineNumber(NumberedLine(n, line)) == line
  {
    var d := NatToString(n);
    var s := NumberedLine(n, line);
    assert OccursAt(s, ": ", |d|) by { assert s[|d|..|d| + 2] == ": "; }
    forall k: nat | k < |d|
      ensures !OccursAt(s, ": ", k)
    {
      assert s[k] == d[k];
    }
    assert s[|d| + 2..] == line;
  }

  /** Removing the number prefixes from an annotated listing gives back the listing. */
  lemma AnnotationRoundTrip(code: string)
    ensures StripLineNumbers(AnnoteLineNumbers(code)) == code
  {
    var lines := Split(code, '\n');
    var out := Split(AnnoteLineNumbers(code), '\n');
    var dropped := seq(|out|, i requires 0 <= i < |out| => DropLineNumber(out[i]));
    forall i | 0 <= i < |lines|
      ensures dropped[i] == lines[i]
    {
      DropNumberedLine(i + 1, lines[i]);
    }
    assert dropped == lines;
    JoinSplit(code, '\n');
  }

  const Fence := "```"

  /** `s.strip().strip("`")`. */
  function StripFence(s: string): (r: string)
    ensures r == [] || (r[0] != '`' && r[|r| - 1] != '`')
  {
    var t := Strip(s);
    StripCharsAvoids(t, {'`'}, '`');
    StripChars(t, {'`'})
  }

  /** `line.strip().startswith("#")`. */
  predicate IsCommentLine(line: string) {
    "#" <= Strip(line)
  }

  function KeepCodeLine(line: string): Option<string> {
    if IsCommentLine(line) then None else Some(line)
  }

  /** `"\n".join([line for line in code.split("\n") if not line.strip().startswith("#")])`. */
  function DropComments(code: string): (r: string)
    ensures forall line :: line in Split(r, '\n') ==> !IsCommentLine(line)
    ensures forall line :: line in Split(code, '\n') && !IsCommentLine(line) ==> line in Split(r, '\n')
    ensures forall line :: line in Split(r, '\n') ==> line in Split(code, '\n') || r == ""
    ensures var kept := FilterMap(Split(code, '\n'), KeepCodeLine);
            && (kept != [] ==> Split(r, '\n') == kept)
            && (kept == [] ==> r == "")
  {
    var lines := Split(code, '\n');
    JoinedKeptLines(lines);
    Join(FilterMap(lines, KeepCodeLine), '\n')
  }

  /** Joining the kept lines and splitting again gives the kept lines back, or a
      single empty line when none was kept. */
  lemma JoinedKeptLines(lines: seq<string>)
    requires forall j :: 0 <= j < |lines| ==> '\n' !in lines[j]
    ensures var r := Join(FilterMap(lines, KeepCodeLine), '\n');
            && (forall line :: line in Split(r, '\n') ==> !IsCommentLine(line))
            && (forall line :: line in lines && !IsCommentLine(line) ==> line in Split(r, '\n'))
            && (forall line :: line in Split(r, '\n') ==> line in lines || r == "")
            && (FilterMap(lines, KeepCodeLine) != [] ==> Split(r, '\n') == FilterMap(lines, KeepCodeLine))
            && (FilterMap(lines, KeepCodeLine) == [] ==> r == "")
  {
    var kept := FilterMap(lines, KeepCodeLine);
    KeptLines(lines);
    if |kept| == 0 {
      NothingKept(kept);
    } else {
      KeptLinesRejoined(lines, kept);
    }
  }

  /** With every line a comment, the join is empty and splits into one empty, non-comment line. */
  lemma NothingKept(kept: seq<string>)
    requires kept == []
    ensures Join(kept, '\n') == "" && Split(Join(kept, '\n'), '\n') == [""] && !IsCommentLine("")
  {
    assert Split("", '\n') == [""];
  }

  /** Kept lines hold no line break, so joining and splitting them is the identity. */
  lemma KeptLinesRejoined(lines: seq<string>, kept: seq<string>)
    requires |kept| >= 1
    requires forall k :: 0 <= k < |kept| ==> '\n' !in kept[k] && !IsCommentLine(kept[k]) && kept[k] in lines
    ensures Split(Join(kept, '\n'), '\n') == kept
    ensures forall line :: line in Split(Join(kept, '\n'), '\n') ==> !IsCommentLine(line) && line in lines
  {
    SplitJoin(kept, '\n');
  }

  /** The kept lines are exactly the input lines that are not comments. */
  lemma KeptLines(lines: seq<string>)
    requires forall j :: 0 <= j < |lines| ==> '\n' !in lines[j]
    ensures var kept := FilterMap(lines, KeepCodeLine);
            && (forall k :: 0 <= k < |kept| ==> '\n' !in kept[k] && !IsCommentLine(kept[k]) && kept[k] in lines)
            && (forall j :: 0 <= j < |lines| && !IsCommentLine(lines[j]) ==> lines[j] in kept)
  {
    var kept := FilterMap(lines, KeepCodeLine);
    FilterMapContents(lines, KeepCodeLine);
    forall k | 0 <= k < |kept|
      ensures kept[k] in lines && !IsCommentLine(kept[k])
    {
      var j :| 0 <= j < |lines| && KeepCodeLine(lines[j]) == Some(kept[k]);
      assert kept[k] == lines[j];
    }
    forall j | 0 <= j < |lines| && !IsCommentLine(lines[j])
      ensures lines[j] in kept
    {
      assert KeepCodeLine(lines[j]).Some?;
    }
  }

  /** Why `_generate_code` raises: `code.index("```")` found no fence. */
  datatype CodeError = NoCodeFence

  /** `_generate_code` up to, not including, the `black` formatting step. */
  function CleanCode(output: string): (r: Result<string, CodeError>)
    ensures r.Err? <==> forall k: nat :: !OccursAt(output, Fence, k)
    ensures r.Ok? ==> r.value == [] || (r.value[0] != '`' && r.value[|r.value| - 1] != '`')
  {
    match Find(output, Fence)
    case None => Err(NoCodeFence)
    case Some(i) => Ok(CleanListing(output[i..]))
  }

  /** From the first fence on: strip the fences, a `python` tag and the comment lines. */
  function CleanListing(fenced: string): (r: string)
    ensures r == [] || (r[0] != '`' && r[|r| - 1] != '`')
  {
    var code := StripFence(fenced);
    var code := if "python\n" <= code then code[7..] else code;
    StripFence(DropComments(code))
  }

  /** Whatever precedes the first fence is discarded: the listing is cut from there. */
  lemma CleanCodeIgnoresPreamble(preamble: string, rest: string)
    requires Fence <= rest
    requires forall k: nat :: k < |preamble| ==> !OccursAt(preamble + rest, Fence, k)
    ensures CleanCode(preamble + rest) == CleanCode(rest)
  {
    var s := preamble + rest;
    assert OccursAt(s, Fence, |preamble|) by { assert s[|preamble|..|preamble| + 3] == rest[..3]; }
    assert OccursAt(rest, Fence, 0);
    assert s[|preamble|..] == rest;
  }

  /** A listing between two fences comes out of the fence strip unchanged. */
  lemma FencedStrip(m: string)
    requires m != [] && m[0] != '`' && m[|m| - 1] != '`'
    ensures StripFence(Fence + m + Fence) == m
  {
    FencedHasNoWhitespaceEnds(m);
    FencesStripped(m);
  }

  lemma FencedHasNoWhitespaceEnds(m: string)
    ensures Strip(Fence + m + Fence) == Fence + m + Fence
  {
    var f := Fence + m + Fence;
    assert f[0] == '`' && f[|f| - 1] == '`';
    VisibleNotWhitespace('`');
    StripCharsKeepsClean(f, Whitespace);
  }

  lemma FencesStripped(m: string)
    requires m != [] && m[0] != '`' && m[|m| - 1] != '`'
    ensures StripChars(Fence + m + Fence, {'`'}) == m
  {
    assert Fence == ['`', '`', '`'];
    assert forall k :: 0 <= k < |Fence| ==> Fence[k] in {'`'};
    StripCharsFrame(Fence, m, Fence, {'`'});
  }

  /** A line break at the end of the listing is lost in the final strip. */
  lemma DropCommentsTrailingBreak(code: string)
    ensures StripFence(DropComments(code + "\n")) == StripFence(DropComments(code))
  {
    var lines := Split(code, '\n');
    SplitAround(code, "", '\n');
    assert code + "\n" == code + ['\n'] + "";
    assert Split("", '\n') == [""];
    FilterMapAppend(lines, [""], KeepCodeLine);
    assert Strip("") == "";
    FilterMapSingle("", KeepCodeLine);
    var kept := FilterMap(lines, KeepCodeLine);
    assert DropComments(code + "\n") == Join(kept + [""], '\n');
    if |kept| > 0 {
      JoinThenEmpty(kept, '\n');
      StripCharsTrailing(DropComments(code), '\n', Whitespace);
    }
  }

  /** Every line of a listing without comment lines survives the comment filter. */
  lemma DropCommentsKeepsCode(code: string)
    requires forall line :: line in Split(code, '\n') ==> !IsCommentLine(line)
    ensures DropComments(code) == code
  {
    var lines := Split(code, '\n');
    assert forall k :: 0 <= k < |lines| ==> KeepCodeLine(lines[k]) == Some(lines[k]);
    FilterMapKeepsAll(lines, KeepCodeLine);
    JoinSplit(code, '\n');
  }

  /** An answer whose first fence opens a `python`-tagged block: the preamble,
      both fences and the tag are dropped, then the comment lines, then the
      surrounding whitespace and backticks. */
  lemma CleanCodeTagged(preamble: string, body: string)
    requires '`' !in preamble
    ensures CleanCode(preamble + "```python\n" + body + "\n```") == Ok(StripFence(DropComments(body)))
  {
    var listing := "```python\n" + body + "\n```";
    assert preamble + "```python\n" + body + "\n```" == preamble + listing;
    NoFenceBefore(preamble, listing);
    CleanCodeIgnoresPreamble(preamble, listing);
    FenceFirst(listing);
    TaggedListing(body);
  }

  /** A preamble without backticks holds no fence, even one running into what follows. */
  lemma NoFenceBefore(preamble: string, rest: string)
    requires '`' !in preamble && Fence <= rest
    ensures forall k: nat :: k < |preamble| ==> !OccursAt(preamble + rest, Fence, k)
  {
    var s := preamble + rest;
    forall k: nat | k < |preamble|
      ensures !OccursAt(s, Fence, k)
    {
      assert s[k] == preamble[k];
    }
  }

  /** A text that opens with a fence is cleaned from its start. */
  lemma FenceFirst(s: string)
    requires Fence <= s
    ensures CleanCode(s) == Ok(CleanListing(s))
  {
    assert OccursAt(s, Fence, 0);
    assert s[0..] == s;
  }

  /** The `python` tag and the line break before the closing fence do not reach the result. */
  lemma TaggedListing(body: string)
    ensures CleanListing("```python\n" + body + "\n```") == StripFence(DropComments(body))
  {
    var tail := body + "\n";
    var m := "python\n" + tail;
    assert "```python\n" + body + "\n```" == Fence + m + Fence;
    FencedStrip(m);
    assert |"python\n"| == 7 && "python\n" <= m;
    assert m[7..] == tail;
    DropCommentsTrailingBreak(body);
  }

  /** A comment-free listing with clean ends, fenced and tagged, is recovered exactly. */
  lemma CleanCodeRecoversListing(preamble: string, body: string)
    requires '`' !in preamble
    requires forall line :: line in Split(body, '\n') ==> !IsCommentLine(line)
    requires body == [] || (body[0] !in Whitespace && body[|body| - 1] !in Whitespace)
    requires body == [] || (body[0] != '`' && body[|body| - 1] != '`')
    ensures CleanCode(preamble + "```python\n" + body + "\n```") == Ok(body)
  {
    CleanCodeTagged(preamble, body);
    DropCommentsKeepsCode(body);
    StripCharsKeepsClean(body, Whitespace);
    StripCharsKeepsClean(body, {'`'});
  }

  /** The rows of the highlight table: the text after the outer fence strip,
      without a leading `csv` tag and without a header line. */
  function TableBody(output: string): string {
    WithoutHeader(WithoutCsvTag(StripFence(output)))
  }

  function WithoutCsvTag(t: string): string {
    if "csv\n" <= t then t[4..] else t
  }

  /** A first line that starts with the column name is the header and is dropped. */
  function WithoutHeader(t: string): string {
    if "start_line_number" <= t then Join(Split(t, '\n')[1..], '\n') else t
  }

  /** A `csv`-tagged table with a header: the table's lines are the rows after
      the header, then the empty line left by the break before the closing fence. */
  lemma HeaderLineDropped(header: string, rows: string)
    requires "start_line_number" <= header && '\n' !in header
    ensures Split(TableBody("```csv\n" + header + "\n" + rows + "\n```"), '\n') == Split(rows, '\n') + [""]
  {
    var inner := header + "\n" + rows;
    assert "```csv\n" + header + "\n" + rows + "\n```" == "```csv\n" + inner + "\n```";
    CsvTagDropped(inner);
    assert inner + "\n" == header + "\n" + rows + "\n";
    HeaderDropped(header, rows);
  }

  lemma HeaderDropped(header: string, rows: string)
    requires "start_line_number" <= header && '\n' !in header
    ensures Split(WithoutHeader(header + "\n" + rows + "\n"), '\n') == Split(rows, '\n') + [""]
  {
    var t := header + "\n" + rows + "\n";
    assert t[..|header|] == header;
    assert "start_line_number" <= t;
    HeaderThenRows(header, rows);
  }

  /** A `csv`-tagged table without a header: every row is a line of the table. */
  lemma RowsKeptWithoutHeader(rows: string)
    requires !("start_line_number" <= rows + "\n")
    ensures Split(TableBody("```csv\n" + rows + "\n```"), '\n') == Split(rows, '\n') + [""]
  {
    CsvTagDropped(rows);
    LinesThenBreak(rows);
  }

  /** The fences and the `csv` tag are stripped, the final line break is kept. */
  lemma CsvTagDropped(inner: string)
    ensures TableBody("```csv\n" + inner + "\n```") == WithoutHeader(inner + "\n")
  {
    var tail := inner + "\n";
    var m := "csv\n" + tail;
    assert "```csv\n" + inner + "\n```" == Fence + m + Fence;
    FencedStrip(m);
    assert |"csv\n"| == 4 && "csv\n" <= m;
    assert m[4..] == tail;
  }

  /** A text ending in a line break splits into its lines and a final empty one. */
  lemma LinesThenBreak(s: string)
    ensures Split(s + "\n", '\n') == Split(s, '\n') + [""]
  {
    assert s + "\n" == s + ['\n'] + "";
    SplitAround(s, "", '\n');
    assert Split("", '\n') == [""];
  }

  /** Dropping the header line and joining again leaves the rows' lines. */
  lemma HeaderThenRows(header: string, rows: string)
    requires '\n' !in header
    ensures Split(Join(Split(header + "\n" + rows + "\n", '\n')[1..], '\n'), '\n') == Split(rows, '\n') + [""]
  {
    var t := header + "\n" + rows + "\n";
    assert t == header + ['\n'] + (rows + "\n");
    SplitAround(header, rows + "\n", '\n');
    SplitWithout(header, '\n');
    LinesThenBreak(rows);
    var parts := Split(rows, '\n') + [""];
    assert Split(t, '\n')[1..] == parts;
    assert forall i :: 0 <= i < |parts| ==> '\n' !in parts[i];
    SplitJoin(parts, '\n');
  }

  /** Removes surrounding `"` and then surrounding `'` from a description. */
  function Unquote(d: string): string {
    StripChars(StripChars(d, {'"'}), {'\''})
  }

  /** One row, already split on `|`: accepted exactly when it has three fields
      whose first two parse as integers. */
  function ParseRow(row: seq<string>): (h: Option<ScriptCodeHighlight>)
    ensures h.Some? <==> |row| == 3 && ParseInt(row[0]).Some? && ParseInt(row[1]).Some?
    ensures h.Some? ==>
              var start, end := ParseInt(row[0]).value, ParseInt(row[1]).value;
              && h.value.lineNumber + 1 == start
              && h.value.lineNumber + h.value.lineCount == end
              && (h.value.lineCount <= 0 <==> end < start)
              && h.value.text == Unquote(row[2])
              && h.value.voiceClip.None?
  {
    if |row| != 3 then None
    else match (ParseInt(row[0]), ParseInt(row[1]))
      case (Some(start), Some(end)) =>
        Some(ScriptCodeHighlight(Unquote(row[2]), start - 1, end - start + 1, None))
      case _ => None
  }

  /** A table line: stripped, split on `|`, then parsed as a row. */
  function ParseLine(line: string): Option<ScriptCodeHighlight> {
    ParseRow(Split(Strip(line), '|'))
  }

  /** A start field of a digit and one of U+001C to U+001F is skipped: `strip()`
      would remove the separator, but `int()` does not, so the row cannot parse. */
  lemma SeparatorRejected(d: char, c: char, row: seq<string>)
    requires IsDigit(d) && c in {'\U{001C}', '\U{001D}', '\U{001E}', '\U{001F}'}
    requires |row| > 0 && row[0] == [d, c]
    ensures Strip(row[0]) == [d]
    ensures ParseRow(row).None?
  {
    NoDigitIsWhitespace(d);
    StripCharsUnique([d, c], Whitespace, 0, 1);
    StripCharsKeepsClean([d, c], IntWhitespace);
  }

  /** A line whose stripped text does not hold exactly two `|` is skipped; this
      covers blank lines and descriptions containing `|`. */
  lemma WrongFieldCountSkipped(line: string)
    requires Count(Strip(line), '|') != 2
    ensures ParseLine(line).None?
  {
  }

  /** `_generate_highlights` after the model call: parse every table line,
      skipping the ones that do not parse; it never raises. */
  function ParseHighlights(output: string): (hs: seq<ScriptCodeHighlight>)
    ensures var lines := Split(TableBody(output), '\n');
            && |hs| <= |lines|
            && (forall k :: 0 <= k < |hs| ==> exists j :: 0 <= j < |lines| && ParseLine(lines[j]) == Some(hs[k]))
            && (forall j :: 0 <= j < |lines| && ParseLine(lines[j]).Some? ==> ParseLine(lines[j]).value in hs)
            && (forall k :: 0 <= k < |hs| ==> hs[k].voiceClip.None?)
  {
    ParsedLines(Split(TableBody(output), '\n'));
    FilterMap(Split(TableBody(output), '\n'), ParseLine)
  }

  /** Every parsed highlight comes from a line, and every line that parses is kept. */
  lemma ParsedLines(lines: seq<string>)
    ensures var hs := FilterMap(lines, ParseLine);
            && |hs| <= |lines|
            && (forall k :: 0 <= k < |hs| ==> exists j :: 0 <= j < |lines| && ParseLine(lines[j]) == Some(hs[k]))
            && (forall j :: 0 <= j < |lines| && ParseLine(lines[j]).Some? ==> ParseLine(lines[j]).value in hs)
            && (forall k :: 0 <= k < |hs| ==> hs[k].voiceClip.None?)
  {
    var hs := FilterMap(lines, ParseLine);
    FilterMapContents(lines, ParseLine);
    forall k | 0 <= k < |hs|
      ensures hs[k].voiceClip.None?
    {
      var j :| 0 <= j < |lines| && ParseLine(lines[j]) == Some(hs[k]);
    }
  }

  /** Parsing keeps the order of the table: the highlights of two consecutive
      stretches of lines are those of the first followed by those of the second. */
  lemma ParseKeepsOrder(a: seq<string>, b: seq<string>)
    ensures FilterMap(a + b, ParseLine) == FilterMap(a, ParseLine) + FilterMap(b, ParseLine)
  {
    FilterMapAppend(a, b, ParseLine);
  }
}

=== FILE: sync.dfy ===
/**
 What `generate_video` promises when it completes: the still clips and the
 narration line up segment by segment. Clip `k` of the video concat list is
 encoded from segment `k`'s frame for exactly the duration of segment `k`'s
 voice clip, and line `k` of the audio concat list names that same voice clip.
 Both generations are covered.
*/
module Sync {
  import opened Results
  import opened Text
  import opened Lists
  import opened Commands
  import opened Audio
  import opened ScriptProcessing
  import opened Video

  /** The encode of every segment in playback order, each held for its own clip's duration. */
  function SegmentEncodes(g: Generation, script: Script): seq<Command>
    requires FullyVoiced(g, script)
  {
    var clips := SegmentClips(g, script);
    seq(|clips|, k requires 0 <= k < |clips| => EncodeFor(g, SegmentAt(g, k), clips[k]))
  }

  /** The opening encodes the intro in the current generation and nothing in the legacy one. */
  lemma OpeningEncodes(g: Generation, script: Script, code: Geometry.Size)
    requires g.Current? ==> script.introVoiceClip.Some?
    ensures FilterMap(Opening(g, script, code), EncodeOf)
            == if g.Current? then [EncodeFor(g, Intro, script.introVoiceClip.value)] else []
  {
    var render := RenderCode(script.code, CodeImagePath(g));
    FilterMapSingle(render, EncodeOf);
    if g.Current? {
      var pair := SegmentCommands(g, code, Intro, IntroBlock, script.introVoiceClip.value);
      assert Opening(g, script, code) == [render] + pair;
      FilterMapAppend([render], pair, EncodeOf);
      FrameThenEncode(pair[0], pair[1]);
      assert pair == [pair[0], pair[1]];
    } else {
      assert Opening(g, script, code) == [render];
    }
  }

  /** A completed run encodes one still clip per segment, in playback order, and no other. */
  lemma PlanEncodes(g: Generation, script: Script, code: Geometry.Size)
    requires FullyVoiced(g, script)
    ensures FilterMap(Reached(Plan(g, script, code)), EncodeOf) == SegmentEncodes(g, script)
  {
    var hs := script.highlights;
    PlanEncodesSplit(g, script, code);
    OpeningEncodes(g, script, code);
    SegmentRunEncodes(g, code, hs, 0, |hs|);
    RunEncodesIndexed(g, hs, 0, |hs|);
    EncodesInOrder(g, script, FilterMap(Opening(g, script, code), EncodeOf), IndexedEncodes(g, hs, 0, |hs|));
  }

  /** The encodes of a completed run are those of the opening, then those of the loop. */
  lemma PlanEncodesSplit(g: Generation, script: Script, code: Geometry.Size)
    requires FullyVoiced(g, script)
    ensures FilterMap(Reached(Plan(g, script, code)), EncodeOf)
            == FilterMap(Opening(g, script, code), EncodeOf)
               + FilterMap(SegmentRun(g, code, script.highlights, 0, |script.highlights|), EncodeOf)
  {
    var hs := script.highlights;
    var opening := Opening(g, script, code);
    var run := SegmentRun(g, code, hs, 0, |hs|);
    var finish := FinishCommands(g, |hs|, SegmentClips(g, script));
    PlanVoiced(g, script, code);
    FilterMapAppend(opening + run, finish, EncodeOf);
    FilterMapAppend(opening, run, EncodeOf);
    FinishHasNoEncode(g, |hs|, SegmentClips(g, script));
  }

  /** The intro's encode (current generation only) followed by one encode per
      highlight, by index, is the encode of every segment in playback order. */
  lemma EncodesInOrder(g: Generation, script: Script, head: seq<Command>, body: seq<Command>)
    requires FullyVoiced(g, script)
    requires head == if g.Current? then [EncodeFor(g, Intro, script.introVoiceClip.value)] else []
    requires body == IndexedEncodes(g, script.highlights, 0, |script.highlights|)
    ensures head + body == SegmentEncodes(g, script)
  {
    var es := head + body;
    var want := SegmentEncodes(g, script);
    var clips := SegmentClips(g, script);
    var hs := script.highlights;
    assert |head| == if g.Current? then 1 else 0;
    assert |es| == |want| == |head| + |hs|;
    forall k | 0 <= k < |es|
      ensures es[k] == want[k]
    {
      assert want[k] == EncodeFor(g, SegmentAt(g, k), clips[k]);
      assert clips[k] == ClipOf(g, script, SegmentAt(g, k));
      if k < |head| {
        assert es[k] == head[0];
        assert SegmentAt(g, k) == Intro;
      } else {
        var j := k - |head|;
        assert es[k] == body[j] == HighlightEncode(g, hs, j);
        assert SegmentAt(g, k) == Part(j);
      }
    }
  }

  /** Total seconds of the still clips among `cs`. */
  function StillSeconds(cs: seq<Command>): int {
    if |cs| == 0 then 0
    else (if cs[0].EncodeStill? then cs[0].seconds else 0) + StillSeconds(cs[1..])
  }

  /** Total duration of voice clips. */
  function TotalDuration(clips: seq<VoiceClip>): int {
    if |clips| == 0 then 0 else clips[0].duration + TotalDuration(clips[1..])
  }

  /** Encodes held for their clips' durations, one to one, last as long as the clips together. */
  lemma {:induction false} MatchedSeconds(es: seq<Command>, clips: seq<VoiceClip>)
    requires |es| == |clips|
    requires forall k :: 0 <= k < |es| ==> es[k].EncodeStill? && es[k].seconds == clips[k].duration
    ensures StillSeconds(es) == TotalDuration(clips)
  {
    if |es| > 0 {
      MatchedSeconds(es[1..], clips[1..]);
    }
  }

  /** The `-t` durations of a completed run's still clips add up to the total duration of its voice clips. */
  lemma PlanDuration(g: Generation, script: Script, code: Geometry.Size)
    requires FullyVoiced(g, script)
    ensures StillSeconds(FilterMap(Reached(Plan(g, script, code)), EncodeOf)) == TotalDuration(SegmentClips(g, script))
  {
    PlanEncodes(g, script, code);
    MatchedSeconds(SegmentEncodes(g, script), SegmentClips(g, script));
  }

  /** Where each generation writes its audio concat list. */
  function AudioListFor(g: Generation): string {
    if g.Current? then AudioListPath else "filelist.txt"
  }

  /** The audio concat list of each generation: base names in the current one, full paths in the legacy one. */
  function AudioLinesFor(g: Generation, clips: seq<VoiceClip>): seq<string> {
    if g.Current? then AudioManifest(clips) else LegacyAudioManifest(clips)
  }

  /** A completed run ends with the five finishing commands over the clips of all
      segments in playback order. */
  lemma PlanFinish(g: Generation, script: Script, code: Geometry.Size)
    requires FullyVoiced(g, script)
    ensures var log := Reached(Plan(g, script, code));
            |log| >= 5 && log[|log| - 5..] == FinishCommands(g, |script.highlights|, SegmentClips(g, script))
  {
    var hs := script.highlights;
    PlanVoiced(g, script, code);
    var front := Opening(g, script, code) + SegmentRun(g, code, hs, 0, |hs|);
    var finish := FinishCommands(g, |hs|, SegmentClips(g, script));
    assert |finish| == 5;
    EndsWith(front, finish);
  }

  /** The finishing commands are wired together: each join reads the list written
      just before it, the video list names the segment clips and the audio list the
      voice clips, and the mux takes the two joined files from offset 0 into the
      final path. Only the video join and, in the current generation, the mux
      overwrite their output. The mux never writes over the joined narration, and
      writes over the joined clips exactly when a legacy video is named `combined`. */
  lemma FinishShape(g: Generation, n: nat, clips: seq<VoiceClip>)
    ensures var fc := FinishCommands(g, n, clips);
            && |fc| == 5
            && fc[0].WriteList? && fc[1].Concat? && fc[2].WriteList? && fc[3].Concat? && fc[4].Mux?
            && fc[1].list == fc[0].path && fc[3].list == fc[2].path && fc[0].path != fc[2].path
            && fc[0].lines == VideoManifest(g, n) && fc[2].lines == AudioLinesFor(g, clips)
            && fc[4].video == fc[1].output && fc[4].audio == fc[3].output
            && fc[4].offset == 0 && fc[4].output == FinalPath(g)
            && fc[1].overwrite && !fc[3].overwrite && (fc[4].overwrite <==> g.Current?)
            && fc[4].output != fc[3].output
            && (fc[4].output == fc[1].output <==> g.Legacy? && g.videoName == "combined")
  {
    FinishPaths(g);
  }

  /** The two lists are distinct files; the final path is never the combined
      narration, and is the combined clips only for a legacy video named `combined`. */
  lemma FinishPaths(g: Generation)
    ensures VideoListPath(g) != AudioListFor(g)
    ensures FinalPath(g) != CombinedAudio(g)
    ensures FinalPath(g) == CombinedVideoPath(g) <==> g.Legacy? && g.videoName == "combined"
  {
    var out, audio, video := FinalPath(g), CombinedAudio(g), CombinedVideoPath(g);
    assert out[|out| - 1] == '4' && audio[|audio| - 1] == '3';
    if g.Legacy? {
      var v := g.videoName;
      assert out == "videos/" + v + ".mp4";
      if out == video {
        assert |v| == 8;
        assert v == out[7..15];
      }
    } else {
      assert out[15] != video[15];
      assert VideoListPath(g)[9] != AudioListFor(g)[9];
    }
  }

  lemma EndsWith(front: seq<Command>, back: seq<Command>)
    ensures (front + back)[|front + back| - |back|..] == back
  {
  }

  /** The run is synchronised: for every segment `k`, line `k` of the video list names
      the clip segment `k` is encoded into, that clip lasts as long as segment `k`'s
      voice clip, and line `k` of the audio list names that voice clip, provided its
      name holds no quote or line end. */
  lemma Synchronised(g: Generation, script: Script, code: Geometry.Size)
    requires FullyVoiced(g, script)
    ensures var es := FilterMap(Reached(Plan(g, script, code)), EncodeOf);
            var clips := SegmentClips(g, script);
            var video := VideoManifest(g, |script.highlights|);
            var audio := AudioLinesFor(g, clips);
            && |es| == |clips| == |video| == |audio| == SegmentCount(g, script)
            && forall k :: 0 <= k < |es| ==>
                 && es[k] == EncodeStill(FramePath(g, SegmentAt(g, k)), clips[k].duration,
                                         ClipsDir(g) + ClipName(SegmentAt(g, k)))
                 && EntryTarget(video[k]) == Some(ClipName(SegmentAt(g, k)))
                 && var name := if g.Current? then BaseName(clips[k].filePath) else clips[k].filePath;
                    EntryTarget(audio[k]) == if ListableName(name) then Some(name) else None
  {
    PlanEncodes(g, script, code);
  }

  /** The highlight loop over voiced segments only writes frames and encodes stills. */
  lemma {:induction false} SegmentRunKinds(g: Generation, code: Geometry.Size, hs: seq<ScriptCodeHighlight>, i: nat, j: nat)
    requires i <= j && VoicedBetween(hs, i, j)
    ensures forall c :: c in SegmentRun(g, code, hs, i, j) ==> c.WriteFrame? || c.EncodeStill?
    decreases j - i
  {
    if i < j {
      SegmentRunKinds(g, code, hs, i + 1, j);
    }
  }

  /** A script with a segment left unvoiced never gets as far as joining the clips,
      combining the narration or muxing: the final video is never produced. */
  lemma UnvoicedNeverMuxes(g: Generation, script: Script, code: Geometry.Size)
    requires !FullyVoiced(g, script)
    ensures forall c :: c in Reached(Plan(g, script, code)) ==> !c.Concat? && !c.Mux? && !c.WriteList?
  {
    var hs := script.highlights;
    if g.Current? && script.introVoiceClip.None? {
      PlanMissingIntro(script, code);
    } else {
      var k := FirstUnvoiced(hs, 0);
      PlanMissingHighlight(g, script, code);
      SegmentRunKinds(g, code, hs, 0, k);
    }
  }

  /** Python's `str` is one to one on naturals. */
  lemma NatToStringInjective(a: nat, b: nat)
    requires NatToString(a) == NatToString(b)
    ensures a == b
  {
    DigitPartValueOfNat(a);
    DigitPartValueOfNat(b);
  }

  /** No two segments share a clip file, so no encode overwrites another segment's clip. */
  lemma ClipNamesDistinct(s: Segment, t: Segment)
    requires s != t
    ensures ClipName(s) != ClipName(t)
  {
    if s.Part? && t.Part? {
      if ClipName(s) == ClipName(t) {
        var a := NatToString(s.index);
        var b := NatToString(t.index);
        assert ClipName(s)[5..|ClipName(s)| - 4] == a;
        assert ClipName(t)[5..|ClipName(t)| - 4] == b;
        NatToStringInjective(s.index, t.index);
      }
    } else {
      var p := if s.Part? then s else t;
      assert ClipName(p)[5] == NatToString(p.index)[0];
      assert ClipName(Intro)[5] == 'i';
    }
  }
}

=== FILE: text.dfy ===
/**
 The handful of Python `str` operations the pipeline's parsers rely on,
 stated over `string` (a sequence of Unicode scalar values).
 */
module Text {
  import opened Results

  /** The characters for which Python's `str.isspace()` holds; `str.strip()`
      with no argument removes exactly these from both ends. */
  const Whitespace: set<char> := {
    '\t', '\n', '\U{000B}', '\U{000C}', '\r', '\U{001C}', '\U{001D}', '\U{001E}', '\U{001F}', ' ',
    '\U{0085}', '\U{00A0}', '\U{1680}', '\U{2000}', '\U{2001}', '\U{2002}', '\U{2003}', '\U{2004}',
    '\U{2005}', '\U{2006}', '\U{2007}', '\U{2008}', '\U{2009}', '\U{200A}', '\U{2028}', '\U{2029}',
    '\U{202F}', '\U{205F}', '\U{3000}'
  }

  /** The characters `int()` skips around a literal: the whitespace above
      apart from the four separators U+001C to U+001F, which CPython's
      ASCII space test does not recognise and which make `int()` raise. */
  const IntWhitespace: set<char> := Whitespace - {'\U{001C}', '\U{001D}', '\U{001E}', '\U{001F}'}

  /** Printable ASCII apart from the space is not whitespace. */
  lemma VisibleNotWhitespace(c: char)
    requires '!' <= c <= '~'
    ensures c !in Whitespace
  {
  }

  /** The first position at or after `from` whose character is not in `cs`, or `|s|`. */
  function SkipForward(s: string, cs: set<char>, from: nat): (p: nat)
    requires from <= |s|
    ensures from <= p <= |s|
    ensures forall k :: from <= k < p ==> s[k] in cs
    ensures p == |s| || s[p] !in cs
    decreases |s| - from
  {
    if from == |s| || s[from] !in cs then from else SkipForward(s, cs, from + 1)
  }

  /** The end of the last character in `s[lo..stop]` that is not in `cs`, or `lo`. */
  function SkipBack(s: string, cs: set<char>, lo: nat, stop: nat): (q: nat)
    requires lo <= stop <= |s|
    ensures lo <= q <= stop
    ensures forall k :: q <= k < stop ==> s[k] in cs
    ensures q == lo || s[q - 1] !in cs
    decreases stop
  {
    if stop == lo || s[stop - 1] !in cs then stop else SkipBack(s, cs, lo, stop - 1)
  }

  /** Every character of `s` outside `s[i..j]` is in `cs`. */
  predicate OnlyAround(s: string, cs: set<char>, i: nat, j: nat)
    requires i <= j <= |s|
  {
    && (forall k :: 0 <= k < i ==> s[k] in cs)
    && (forall k :: j <= k < |s| ==> s[k] in cs)
  }

  /** `s[i..j]` has ends outside `cs`, or is empty. */
  predicate CleanEnds(s: string, cs: set<char>, i: nat, j: nat)
    requires i <= j <= |s|
  {
    i == j || (s[i] !in cs && s[j - 1] !in cs)
  }

  /** Python's `s.strip(chars)`, with `chars` given as a set: the middle of `s`
      left once the characters of `cs` are removed from both ends. */
  function StripChars(s: string, cs: set<char>): (r: string)
    ensures |r| <= |s|
    ensures exists i: nat, j: nat :: i <= j <= |s| && r == s[i..j] && OnlyAround(s, cs, i, j)
    ensures r == [] || (r[0] !in cs && r[|r| - 1] !in cs)
  {
    var b := StripBounds(s, cs);
    s[b.0..b.1]
  }

  /** Where the strip of `s` starts and ends. */
  function StripBounds(s: string, cs: set<char>): (b: (nat, nat))
    ensures b.0 <= b.1 <= |s| && OnlyAround(s, cs, b.0, b.1) && CleanEnds(s, cs, b.0, b.1)
  {
    var i := SkipForward(s, cs, 0);
    (i, SkipBack(s, cs, i, |s|))
  }

  /** The strip is the only middle of `s` with clean ends and only `cs` around it. */
  lemma StripCharsUnique(s: string, cs: set<char>, i: nat, j: nat)
    requires i <= j <= |s| && OnlyAround(s, cs, i, j) && CleanEnds(s, cs, i, j)
    ensures StripChars(s, cs) == s[i..j]
  {
    if i == j {
      assert forall k :: 0 <= k < |s| ==> s[k] in cs;
      assert SkipForward(s, cs, 0) == |s|;
    } else {
      assert s[i] !in cs && s[j - 1] !in cs;
      assert SkipForward(s, cs, 0) == i;
      assert SkipBack(s, cs, i, |s|) == j;
    }
  }

  /** Stripping `a + m + b`, where `a` and `b` are made of `cs` and `m` has clean ends, gives `m`. */
  lemma StripCharsFrame(a: string, m: string, b: string, cs: set<char>)
    requires forall k :: 0 <= k < |a| ==> a[k] in cs
    requires forall k :: 0 <= k < |b| ==> b[k] in cs
    requires m == [] || (m[0] !in cs && m[|m| - 1] !in cs)
    ensures StripChars(a + m + b, cs) == m
  {
    var s := a + m + b;
    var i, j := |a|, |a| + |m|;
    assert s[i..j] == m;
    assert OnlyAround(s, cs, i, j) by {
      assert forall k :: 0 <= k < i ==> s[k] == a[k];
      assert forall k :: j <= k < |s| ==> s[k] == b[k - j];
    }
    if m != [] {
      assert s[i] == m[0] && s[j - 1] == m[|m| - 1];
    }
    StripCharsUnique(s, cs, i, j);
  }

  /** A trailing character of `cs` makes no difference to the strip. */
  lemma StripCharsTrailing(s: string, c: char, cs: set<char>)
    requires c in cs
    ensures StripChars(s + [c], cs) == StripChars(s, cs)
  {
    var b := StripBounds(s, cs);
    OnlyAroundExtends(s, c, cs, b.0, b.1);
    StripCharsUnique(s + [c], cs, b.0, b.1);
  }

  lemma OnlyAroundExtends(s: string, c: char, cs: set<char>, i: nat, j: nat)
    requires c in cs && i <= j <= |s| && OnlyAround(s, cs, i, j) && CleanEnds(s, cs, i, j)
    ensures OnlyAround(s + [c], cs, i, j) && CleanEnds(s + [c], cs, i, j)
    ensures (s + [c])[i..j] == s[i..j]
  {
    var t := s + [c];
    assert forall k :: 0 <= k < |s| ==> t[k] == s[k];
  }

  /** Neither end of a strip is a character that was stripped. */
  lemma StripCharsAvoids(s: string, cs: set<char>, c: char)
    requires c in cs
    ensures var r := StripChars(s, cs);
            r == [] || (r[0] != c && r[|r| - 1] != c)
  {
  }

  /** Python's `s.strip()`. */
  function Strip(s: string): string {
    StripChars(s, Whitespace)
  }

  /** Stripping leaves a string whose ends are already clean untouched. */
  lemma StripCharsKeepsClean(s: string, cs: set<char>)
    requires s == [] || (s[0] !in cs && s[|s| - 1] !in cs)
    ensures StripChars(s, cs) == s
  {
    StripCharsUnique(s, cs, 0, |s|);
  }

  /** Stripping twice is stripping once. */
  lemma StripCharsIdempotent(s: string, cs: set<char>)
    ensures StripChars(StripChars(s, cs), cs) == StripChars(s, cs)
  {
    StripCharsKeepsClean(StripChars(s, cs), cs);
  }

  /** Number of occurrences of `c` in `s`. */
  function Count(s: string, c: char): nat
    decreases |s|
  {
    if |s| == 0 then 0 else (if s[0] == c then 1 else 0) + Count(s[1..], c)
  }

  /** Python's `s.split(sep)` for a one-character separator: the pieces between
      separators, one more piece than there are separators. */
  function Split(s: string, sep: char): (parts: seq<string>)
    ensures |parts| == Count(s, sep) + 1
    ensures forall i :: 0 <= i < |parts| ==> sep !in parts[i]
    decreases |s|
  {
    if |s| == 0 then [""]
    else
      var rest := Split(s[1..], sep);
      if s[0] == sep then [""] + rest
      else [[s[0]] + rest[0]] + rest[1..]
  }

  /** Python's `sep.join(parts)` for a one-character separator. */
  function Join(parts: seq<string>, sep: char): string
    decreases |parts|
  {
    if |parts| == 0 then ""
    else if |parts| == 1 then parts[0]
    else parts[0] + [sep] + Join(parts[1..], sep)
  }

  /** Joining the pieces of a split gives back the original string. */
  lemma {:induction false} JoinSplit(s: string, sep: char)
    ensures Join(Split(s, sep), sep) == s
    decreases |s|
  {
    if |s| > 0 {
      var rest := Split(s[1..], sep);
      JoinSplit(s[1..], sep);
      if s[0] == sep {
        assert Split(s, sep) == [""] + rest;
        if |rest| == 1 {
          assert Join(Split(s, sep), sep) == "" + [sep] + rest[0];
        } else {
          assert ([""] + rest)[1..] == rest;
        }
      } else {
        var parts := Split(s, sep);
        assert parts == [[s[0]] + rest[0]] + rest[1..];
        if |rest| == 1 {
          assert Join(parts, sep) == [s[0]] + rest[0];
        } else {
          assert parts[1..] == rest[1..];
          assert Join(parts, sep) == [s[0]] + rest[0] + [sep] + Join(rest[1..], sep);
        }
      }
    }
  }

  /** A string without the separator splits into itself. */
  lemma {:induction false} SplitWithout(s: string, sep: char)
    requires sep !in s
    ensures Split(s, sep) == [s]
    decreases |s|
  {
    if |s| > 0 {
      assert sep !in s[1..] by { assert forall k :: 0 <= k < |s| - 1 ==> s[1..][k] == s[k + 1]; }
      SplitWithout(s[1..], sep);
      assert [s[0]] + s[1..] == s;
    }
  }

  /** A separator-free head followed by a separator splits off as one piece. */
  lemma {:induction false} SplitHead(p: string, sep: char, t: string)
    requires sep !in p
    ensures Split(p + [sep] + t, sep) == [p] + Split(t, sep)
    decreases |p|
  {
    if |p| == 0 {
      assert p + [sep] + t == [sep] + t;
      assert ([sep] + t)[1..] == t;
    } else {
      var s := p + [sep] + t;
      assert s[1..] == p[1..] + [sep] + t;
      assert sep !in p[1..] by { assert forall k :: 0 <= k < |p| - 1 ==> p[1..][k] == p[k + 1]; }
      SplitHead(p[1..], sep, t);
      assert [s[0]] + p[1..] == p;
    }
  }

  /** Splitting a join of separator-free pieces gives back the pieces. */
  lemma {:induction false} SplitJoin(parts: seq<string>, sep: char)
    requires |parts| >= 1
    requires forall i :: 0 <= i < |parts| ==> sep !in parts[i]
    ensures Split(Join(parts, sep), sep) == parts
    decreases |parts|
  {
    if |parts| == 1 {
      SplitWithout(parts[0], sep);
    } else {
      SplitJoin(parts[1..], sep);
      SplitHead(parts[0], sep, Join(parts[1..], sep));
      assert [parts[0]] + parts[1..] == parts;
    }
  }

  /** Splitting at a separator splits each side on its own. */
  lemma SplitAround(a: string, b: string, sep: char)
    ensures Split(a + [sep] + b, sep) == Split(a, sep) + Split(b, sep)
  {
    var pa, pb := Split(a, sep), Split(b, sep);
    JoinSplit(a, sep);
    JoinSplit(b, sep);
    JoinAppend(pa, pb, sep);
    SeparatorFreeParts(pa, pb, sep);
    SplitJoin(pa + pb, sep);
  }

  lemma SeparatorFreeParts(pa: seq<string>, pb: seq<string>, sep: char)
    requires forall i :: 0 <= i < |pa| ==> sep !in pa[i]
    requires forall i :: 0 <= i < |pb| ==> sep !in pb[i]
    ensures forall i :: 0 <= i < |pa + pb| ==> sep !in (pa + pb)[i]
  {
    forall i | 0 <= i < |pa + pb|
      ensures sep !in (pa + pb)[i]
    {
      if i < |pa| {
        assert (pa + pb)[i] == pa[i];
      } else {
        assert (pa + pb)[i] == pb[i - |pa|];
      }
    }
  }

  /** Joining two runs of parts puts one separator between their joins. */
  lemma {:induction false} JoinAppend(ps: seq<string>, qs: seq<string>, sep: char)
    requires |ps| >= 1 && |qs| >= 1
    ensures Join(ps + qs, sep) == Join(ps, sep) + [sep] + Join(qs, sep)
    decreases |ps|
  {
    assert (ps + qs)[0] == ps[0];
    if |ps| == 1 {
      assert (ps + qs)[1..] == qs;
    } else {
      JoinAppend(ps[1..], qs, sep);
      assert (ps + qs)[1..] == ps[1..] + qs;
    }
  }

  /** A trailing empty part adds one separator at the end of the join. */
  lemma {:induction false} JoinThenEmpty(parts: seq<string>, sep: char)
    requires |parts| >= 1
    ensures Join(parts + [""], sep) == Join(parts, sep) + [sep]
    decreases |parts|
  {
    if |parts| > 1 {
      JoinThenEmpty(parts[1..], sep);
      assert (parts + [""])[1..] == parts[1..] + [""];
    }
  }

  /** `pat` occurs in `s` starting at index `i`. */
  predicate OccursAt(s: string, pat: string, i: nat) {
    i + |pat| <= |s| && s[i..i + |pat|] == pat
  }

  /** The first index at or after `from` where `pat` occurs, if any. */
  function FindFrom(s: string, pat: string, from: nat): (r: Option<nat>)
    ensures r.Some? ==> from <= r.value && OccursAt(s, pat, r.value)
    ensures r.Some? ==> forall k :: from <= k < r.value ==> !OccursAt(s, pat, k)
    ensures r.None? ==> forall k :: from <= k ==> !OccursAt(s, pat, k)
    decreases |s| - from
  {
    if from + |pat| > |s| then None
    else if s[from..from + |pat|] == pat then Some(from)
    else FindFrom(s, pat, from + 1)
  }

  /** Python's `s.find(pat)`, with `None` for `-1`; `s.index(pat)` raises exactly when this is `None`. */
  function Find(s: string, pat: string): (r: Option<nat>)
    ensures r.Some? ==> OccursAt(s, pat, r.value) && forall k: nat :: k < r.value ==> !OccursAt(s, pat, k)
    ensures r.None? <==> forall k: nat :: !OccursAt(s, pat, k)
  {
    FindFrom(s, pat, 0)
  }

  /** Python's `s.rsplit("/", 1)[-1]`, which is what `os.path.basename` computes
      on POSIX: the longest suffix of `p` without a `/`. */
  function BaseName(p: string): (r: string)
    ensures '/' !in r
    ensures |r| <= |p| && r == p[|p| - |r|..]
    ensures |r| == |p| || p[|p| - |r| - 1] == '/'
    decreases |p|
  {
    if |p| == 0 || p[|p| - 1] == '/' then ""
    else BaseName(p[..|p| - 1]) + [p[|p| - 1]]
  }

  predicate IsDigit(c: char) {
    '0' <= c <= '9'
  }

  function DigitValue(c: char): nat
    requires IsDigit(c)
  {
    (c as int) - ('0' as int)
  }

  function DigitChar(d: nat): char
    requires d < 10
  {
    ((('0' as int) + d) as char)
  }

  /** Python's `str(n)` for a natural number. */
  function NatToString(n: nat): (s: string)
    ensures |s| >= 1
    ensures forall k :: 0 <= k < |s| ==> IsDigit(s[k])
  {
    if n < 10 then [DigitChar(n)] else NatToString(n / 10) + [DigitChar(n % 10)]
  }

  /** Python's `str(n)` for an integer. */
  function IntToString(n: int): string {
    if n < 0 then "-" + NatToString(-n) else NatToString(n)
  }

  /** The digit part Python's `int()` accepts in base 10: decimal digits, with
      single underscores allowed between two digits. */
  predicate IsDigitPart(s: string) {
    && |s| >= 1
    && IsDigit(s[0])
    && IsDigit(s[|s| - 1])
    && (forall k :: 0 <= k < |s| ==> IsDigit(s[k]) || s[k] == '_')
    && (forall k :: 0 <= k < |s| - 1 ==> s[k] != '_' || s[k + 1] != '_')
  }

  /** The decimal value of digits interleaved with underscores, underscores ignored. */
  function DigitPartValue(s: string): nat
    requires forall k :: 0 <= k < |s| ==> IsDigit(s[k]) || s[k] == '_'
    decreases |s|
  {
    if |s| == 0 then 0
    else if s[|s| - 1] == '_' then DigitPartValue(s[..|s| - 1])
    else DigitPartValue(s[..|s| - 1]) * 10 + DigitValue(s[|s| - 1])
  }

  /** The literals, after `IntWhitespace` is stripped, that Python's `int()` accepts in base 10. */
  predicate IsIntLiteral(t: string) {
    if |t| > 0 && (t[0] == '-' || t[0] == '+') then IsDigitPart(t[1..]) else IsDigitPart(t)
  }

  /** Python's `int(s)` on a string; `None` where it raises `ValueError`. */
  function ParseInt(s: string): (r: Option<int>)
    ensures r.Some? <==> IsIntLiteral(StripChars(s, IntWhitespace))
  {
    ParseLiteral(StripChars(s, IntWhitespace))
  }

  /** The value of an already stripped literal: optional sign, then the digit part. */
  function ParseLiteral(t: string): (r: Option<int>)
    ensures r.Some? <==> IsIntLiteral(t)
  {
    if |t| > 0 && (t[0] == '-' || t[0] == '+') then
      if IsDigitPart(t[1..]) then
        var v: int := DigitPartValue(t[1..]);
        Some(if t[0] == '-' then -v else v)
      else None
    else if IsDigitPart(t) then Some(DigitPartValue(t))
    else None
  }

  lemma {:induction false} DigitPartValueOfNat(n: nat)
    ensures IsDigitPart(NatToString(n))
    ensures DigitPartValue(NatToString(n)) == n
  {
    var s := NatToString(n);
    if n >= 10 {
      DigitPartValueOfNat(n / 10);
      assert s[..|s| - 1] == NatToString(n / 10);
    }
  }

  /** `int(str(n)) == n`: printing an integer and parsing it back is the identity. */
  lemma ParseIntRoundTrip(n: int)
    ensures ParseInt(IntToString(n)) == Some(n)
  {
    PrintedIsStripped(n);
    LiteralRoundTrip(n);
  }

  /** The printed form of an integer reads back as that integer. */
  lemma LiteralRoundTrip(n: int)
    ensures ParseLiteral(IntToString(n)) == Some(n)
  {
    var d := NatToString(if n < 0 then -n else n);
    DigitPartValueOfNat(if n < 0 then -n else n);
    if n < 0 {
      var s := "-" + d;
      assert IntToString(n) == s;
      assert s[1..] == d;
    } else {
      assert IntToString(n) == d;
      assert d[0] != '-' && d[0] != '+';
    }
  }

  /** The printed form of an integer has no surrounding whitespace. */
  lemma PrintedIsStripped(n: int)
    ensures StripChars(IntToString(n), IntWhitespace) == IntToString(n)
  {
    var s := IntToString(n);
    var d := NatToString(if n < 0 then -n else n);
    assert s[|s| - 1] == d[|d| - 1];
    NoDigitIsWhitespace(d[|d| - 1]);
    if n < 0 {
      assert s[0] == '-';
      assert '-' !in Whitespace;
    } else {
      NoDigitIsWhitespace(s[0]);
    }
    StripCharsKeepsClean(s, IntWhitespace);
  }

  lemma NoDigitIsWhitespace(c: char)
    requires IsDigit(c)
    ensures c !in Whitespace
  {
  }

  /** Surrounding whitespace of the kind `int()` skips does not change what it returns. */
  lemma ParseIntIgnoresWhitespace(s: string)
    ensures ParseInt(s) == ParseInt(StripChars(s, IntWhitespace))
  {
    StripCharsIdempotent(s, IntWhitespace);
  }
}

=== FILE: video.dfy ===
/**
 `generate_video` in its two generations: `src/video_processing.py`
 (`Current`: an intro segment, boxes only for positive line counts, fixed
 output paths) and `src/video_generation.py` (`Legacy`: no intro, a box on
 every frame, `uuid4` names for the combined audio and the final video).
 Each is a plan of commands run by `Commands.Execute`; the plan ends where
 Python would raise on a `None` voice clip.
 */
module Video {
  import opened Results
  import opened Text
  import opened Lists
  import opened Geometry
  import opened Commands
  import opened Audio
  import opened ScriptProcessing

  /** The generation of the pipeline; the legacy one carries the fresh
      `uuid4().hex` names of its combined audio and of its final video. */
  datatype Generation = Current | Legacy(audioName: string, videoName: string)

  function ImagesDir(g: Generation): string {
    if g.Current? then "./assets/images/" else "images/"
  }

  function ClipsDir(g: Generation): string {
    if g.Current? then "./assets/clips/" else "videos/"
  }

  /** How artifacts of a segment are named: `intro`, or the highlight's index. */
  function Tag(s: Segment): string {
    match s
    case Intro => "intro"
    case Part(i) => NatToString(i)
  }

  function FramePath(g: Generation, s: Segment): string {
    ImagesDir(g) + "frame_" + Tag(s) + ".png"
  }

  function ClipName(s: Segment): string {
    "clip_" + Tag(s) + ".mp4"
  }

  /** Clip names are built from letters, digits, `_` and `.`, so every one can be listed. */
  lemma ClipNameListable(s: Segment)
    ensures ListableName(ClipName(s))
  {
    var name := ClipName(s);
    var t := Tag(s);
    assert name == "clip_" + t + ".mp4";
    assert forall k :: 0 <= k < |t| ==> t[k] != '\'' && t[k] != '\n';
    forall k | 0 <= k < |name|
      ensures name[k] != '\'' && name[k] != '\n'
    {
      if 5 <= k < 5 + |t| {
        assert name[k] == t[k - 5];
      }
    }
  }

  function ClipPath(g: Generation, s: Segment): string {
    ClipsDir(g) + ClipName(s)
  }

  function CodeImagePath(g: Generation): string {
    ImagesDir(g) + "code_image.png"
  }

  function VideoListPath(g: Generation): string {
    ClipsDir(g) + "concat.txt"
  }

  function CombinedVideoPath(g: Generation): string {
    ClipsDir(g) + "combined.mp4"
  }

  /** The combined narration `combine_audio_clips` produces. */
  function CombinedAudio(g: Generation): string {
    match g
    case Current => CombinedAudioPath
    case Legacy(a, _) => "videos/" + a + ".mp3"
  }

  /** The muxed video `add_audio_to_video` writes and `generate_video` returns. */
  function FinalPath(g: Generation): string {
    match g
    case Current => "./assets/clips/final.mp4"
    case Legacy(_, v) => "videos/" + v + ".mp4"
  }

  function DrawFrame(g: Generation, code: Size, block: HighlightedCodeBlock): Frame {
    if g.Current? then CurrentFrame(code, block, Canvas) else LegacyFrame(code, block, Canvas)
  }

  function BlockOf(h: ScriptCodeHighlight): HighlightedCodeBlock {
    HighlightedCodeBlock(h.lineNumber, h.lineCount)
  }

  /** The block the current generation renders its intro frame with. */
  const IntroBlock := HighlightedCodeBlock(-1, 0)

  /** Write the segment's frame, then read its clip's duration (raising on `None`)
      and encode the frame into a still clip of that many seconds. */
  function SegmentSteps(g: Generation, code: Size, s: Segment, block: HighlightedCodeBlock,
                        clip: Option<VoiceClip>): seq<Step> {
    [Issue(WriteFrame(FramePath(g, s), DrawFrame(g, code, block)))]
    + match clip
      case None => [Crash(s)]
      case Some(c) => [Issue(EncodeFor(g, s, c))]
  }

  /** The two commands of a segment that has a voice clip. */
  function SegmentCommands(g: Generation, code: Size, s: Segment, block: HighlightedCodeBlock,
                           c: VoiceClip): seq<Command> {
    [WriteFrame(FramePath(g, s), DrawFrame(g, code, block)), EncodeFor(g, s, c)]
  }

  /** A voiced segment only issues its two commands. */
  lemma VoicedSegmentSteps(g: Generation, code: Size, s: Segment, block: HighlightedCodeBlock, c: VoiceClip)
    ensures SegmentSteps(g, code, s, block, Some(c)) == Issues(SegmentCommands(g, code, s, block, c))
  {
  }

  /** The video concat list: the intro clip first in the current generation,
      then one line per highlight, by index. */
  function VideoManifest(g: Generation, n: nat): (lines: seq<string>)
    ensures |lines| == n + if g.Current? then 1 else 0
    ensures forall k :: 0 <= k < |lines| ==> EntryTarget(lines[k]) == Some(ClipName(SegmentAt(g, k)))
  {
    var names := seq(n + if g.Current? then 1 else 0, k requires k >= 0 => ClipName(SegmentAt(g, k)));
    assert forall k :: 0 <= k < |names| ==> ListableName(names[k]) by {
      forall k | 0 <= k < |names| {
        ClipNameListable(SegmentAt(g, k));
      }
    }
    ConcatList(names)
  }

  /** The audio concat list of `combine_audio_clips` in `src/video_generation.py`:
      one line per clip, in order, naming the clip by its full path; a path holding
      a quote or a line end does not read back. */
  function LegacyAudioManifest(clips: seq<VoiceClip>): (lines: seq<string>)
    ensures |lines| == |clips|
    ensures forall i :: 0 <= i < |clips| ==>
              EntryTarget(lines[i]) == if ListableName(clips[i].filePath) then Some(clips[i].filePath) else None
  {
    ConcatList(seq(|clips|, i requires 0 <= i < |clips| => clips[i].filePath))
  }

  /** `combine_audio_clips` of `src/video_generation.py`. */
  function LegacyCombineAudioClips(clips: seq<VoiceClip>, audioName: string): seq<Command> {
    [WriteList("filelist.txt", LegacyAudioManifest(clips)), Concat("filelist.txt", "videos/" + audioName + ".mp3", false)]
  }

  /** `add_audio_to_video`; only the current generation passes `-y`. */
  function AddAudioToVideo(g: Generation, video: string, voice: string, offset: int): Command {
    Mux(video, voice, offset, FinalPath(g), g.Current?)
  }

  /** What follows the last clip: write and concat the video list, combine the
      narration, and mux the two with offset 0. */
  function FinishCommands(g: Generation, n: nat, voiced: seq<VoiceClip>): seq<Command> {
    [WriteList(VideoListPath(g), VideoManifest(g, n)), Concat(VideoListPath(g), CombinedVideoPath(g), true)]
    + (match g
       case Current => CombineAudioClips(voiced)
       case Legacy(a, _) => LegacyCombineAudioClips(voiced, a))
    + [AddAudioToVideo(g, CombinedVideoPath(g), CombinedAudio(g), 0)]
  }

  /** The loop over highlights from index `i`, having collected the clips `voiced`
      so far; a `None` clip ends the plan. */
  function HighlightSteps(g: Generation, code: Size, hs: seq<ScriptCodeHighlight>, i: nat,
                          voiced: seq<VoiceClip>): seq<Step>
    requires i <= |hs|
    decreases |hs| - i
  {
    if i == |hs| then Issues(FinishCommands(g, |hs|, voiced))
    else
      var steps := SegmentSteps(g, code, Part(i), BlockOf(hs[i]), hs[i].voiceClip);
      match hs[i].voiceClip
      case None => steps
      case Some(c) => steps + HighlightSteps(g, code, hs, i + 1, voiced + [c])
  }

  /** Everything `generate_video` would do if no command failed. */
  function Plan(g: Generation, script: Script, code: Size): seq<Step> {
    var render := [Issue(RenderCode(script.code, CodeImagePath(g)))];
    match g
    case Current =>
      var intro := SegmentSteps(g, code, Intro, IntroBlock, script.introVoiceClip);
      render + (match script.introVoiceClip
                case None => intro
                case Some(c) => intro + HighlightSteps(g, code, script.highlights, 0, [c]))
    case Legacy(_, _) =>
      render + HighlightSteps(g, code, script.highlights, 0, [])
  }

  /** Every highlight from index `i` to `j` (exclusive) has a voice clip. */
  predicate VoicedBetween(hs: seq<ScriptCodeHighlight>, i: nat, j: nat) {
    j <= |hs| && forall k :: i <= k < j ==> hs[k].voiceClip.Some?
  }

  /** The script's narration is complete for generation `g`. */
  predicate FullyVoiced(g: Generation, script: Script) {
    (g.Current? ==> script.introVoiceClip.Some?) && VoicedBetween(script.highlights, 0, |script.highlights|)
  }

  /** Playback position `k` belongs to this segment: the intro comes first in the current generation. */
  function SegmentAt(g: Generation, k: nat): Segment {
    if g.Current? then (if k == 0 then Intro else Part(k - 1)) else Part(k)
  }

  /** Number of segments played. */
  function SegmentCount(g: Generation, script: Script): nat {
    |script.highlights| + if g.Current? then 1 else 0
  }

  /** The voice clip a segment is narrated by. */
  function ClipOf(g: Generation, script: Script, s: Segment): VoiceClip
    requires FullyVoiced(g, script)
    requires s.Intro? ==> g.Current?
    requires s.Part? ==> s.index < |script.highlights|
  {
    match s
    case Intro => script.introVoiceClip.value
    case Part(i) => script.highlights[i].voiceClip.value
  }

  /** The clips of all segments in playback order. */
  function SegmentClips(g: Generation, script: Script): (clips: seq<VoiceClip>)
    requires FullyVoiced(g, script)
    ensures |clips| == SegmentCount(g, script)
  {
    var n := SegmentCount(g, script);
    seq(n, k requires 0 <= k < n => ClipOf(g, script, SegmentAt(g, k)))
  }

  /** The encode of the frame of a segment, held for its clip's duration. */
  function EncodeFor(g: Generation, s: Segment, clip: VoiceClip): Command {
    EncodeStill(FramePath(g, s), clip.duration, ClipPath(g, s))
  }

  /** The commands the highlight loop issues for indices `i` to `j` when all have clips. */
  function SegmentRun(g: Generation, code: Size, hs: seq<ScriptCodeHighlight>, i: nat, j: nat): seq<Command>
    requires i <= j && VoicedBetween(hs, i, j)
    decreases j - i
  {
    if i == j then []
    else SegmentCommands(g, code, Part(i), BlockOf(hs[i]), hs[i].voiceClip.value)
         + SegmentRun(g, code, hs, i + 1, j)
  }

  /** The clips of highlights `i` to `j`. */
  function ClipsBetween(hs: seq<ScriptCodeHighlight>, i: nat, j: nat): (clips: seq<VoiceClip>)
    requires i <= j && VoicedBetween(hs, i, j)
    ensures |clips| == j - i
    ensures forall k :: 0 <= k < j - i ==> clips[k] == hs[i + k].voiceClip.value
  {
    seq(j - i, k requires 0 <= k < j - i => hs[i + k].voiceClip.value)
  }

  /** The encodes of highlights `i` to `j`, each held for its own clip's duration. */
  function RunEncodes(g: Generation, hs: seq<ScriptCodeHighlight>, i: nat, j: nat): seq<Command>
    requires i <= j && VoicedBetween(hs, i, j)
    decreases j - i
  {
    if i == j then [] else [HighlightEncode(g, hs, i)] + RunEncodes(g, hs, i + 1, j)
  }

  /** Over voiced highlights the loop encodes exactly their clips, in index order. */
  lemma {:induction false} SegmentRunEncodes(g: Generation, code: Size, hs: seq<ScriptCodeHighlight>, i: nat, j: nat)
    requires i <= j && VoicedBetween(hs, i, j)
    ensures FilterMap(SegmentRun(g, code, hs, i, j), EncodeOf) == RunEncodes(g, hs, i, j)
    decreases j - i
  {
    if i < j {
      var c := hs[i].voiceClip.value;
      var cmds := SegmentCommands(g, code, Part(i), BlockOf(hs[i]), c);
      var tail := SegmentRun(g, code, hs, i + 1, j);
      SegmentRunEncodes(g, code, hs, i + 1, j);
      FilterMapAppend(cmds, tail, EncodeOf);
      SegmentCommandsEncode(g, code, Part(i), BlockOf(hs[i]), c);
    }
  }

  /** The encodes of highlights `i` to `j`, by position: entry `k` is highlight `i + k`'s. */
  function IndexedEncodes(g: Generation, hs: seq<ScriptCodeHighlight>, i: nat, j: nat): seq<Command>
    requires i <= j && VoicedBetween(hs, i, j)
  {
    seq(j - i, k requires 0 <= k < j - i => HighlightEncode(g, hs, i + k))
  }

  /** The encode of highlight `m`, held for its clip's duration. */
  function HighlightEncode(g: Generation, hs: seq<ScriptCodeHighlight>, m: nat): Command
    requires m < |hs| && hs[m].voiceClip.Some?
  {
    EncodeFor(g, Part(m), hs[m].voiceClip.value)
  }

  /** Entry `k` of the encodes of highlights `i` to `j` is the encode of highlight `i + k`. */
  lemma {:induction false} RunEncodesIndexed(g: Generation, hs: seq<ScriptCodeHighlight>, i: nat, j: nat)
    requires i <= j && VoicedBetween(hs, i, j)
    ensures RunEncodes(g, hs, i, j) == IndexedEncodes(g, hs, i, j)
    decreases j - i
  {
    if i < j {
      RunEncodesIndexed(g, hs, i + 1, j);
      IndexedEncodesCons(g, hs, i, j);
    }
  }

  /** The positional encodes from `i` are highlight `i`'s, then the positional encodes from `i + 1`. */
  lemma IndexedEncodesCons(g: Generation, hs: seq<ScriptCodeHighlight>, i: nat, j: nat)
    requires i < j && VoicedBetween(hs, i, j)
    ensures IndexedEncodes(g, hs, i, j) == [HighlightEncode(g, hs, i)] + IndexedEncodes(g, hs, i + 1, j)
  {
    var rest := IndexedEncodes(g, hs, i + 1, j);
    var whole := IndexedEncodes(g, hs, i, j);
    forall k | 0 <= k < |rest|
      ensures rest[k] == whole[k + 1]
    {
      var m := i + 1 + k;
      assert rest[k] == HighlightEncode(g, hs, m);
      assert whole[k + 1] == HighlightEncode(g, hs, m);
    }
    ConsShift(HighlightEncode(g, hs, i), rest, whole);
  }

  /** A voiced segment's commands contribute exactly its encode. */
  lemma SegmentCommandsEncode(g: Generation, code: Size, s: Segment, block: HighlightedCodeBlock, c: VoiceClip)
    ensures FilterMap(SegmentCommands(g, code, s, block, c), EncodeOf) == [EncodeFor(g, s, c)]
  {
    var cmds := SegmentCommands(g, code, s, block, c);
    FrameThenEncode(cmds[0], cmds[1]);
    assert cmds == [cmds[0], cmds[1]];
  }

  /** A frame write followed by an encode contributes just the encode. */
  lemma FrameThenEncode(w: Command, e: Command)
    requires w.WriteFrame? && e.EncodeStill?
    ensures FilterMap([w, e], EncodeOf) == [e]
  {
    assert [w, e][1..] == [e];
    assert [e][1..] == [];
  }

  /** With clips from `i` on, the loop issues every segment's frame and encode,
      then the finishing commands over all clips collected. */
  lemma {:induction false} HighlightStepsVoiced(g: Generation, code: Size, hs: seq<ScriptCodeHighlight>,
                                               i: nat, voiced: seq<VoiceClip>)
    requires i <= |hs| && VoicedBetween(hs, i, |hs|)
    ensures FirstCrash(HighlightSteps(g, code, hs, i, voiced)).None?
    ensures Reached(HighlightSteps(g, code, hs, i, voiced))
            == SegmentRun(g, code, hs, i, |hs|) + FinishCommands(g, |hs|, voiced + ClipsBetween(hs, i, |hs|))
    decreases |hs| - i
  {
    if i == |hs| {
      HighlightStepsDone(g, code, hs, voiced);
    } else {
      var c := hs[i].voiceClip.value;
      var cmds := SegmentCommands(g, code, Part(i), BlockOf(hs[i]), c);
      HighlightStepsStep(g, code, hs, i, voiced);
      HighlightStepsVoiced(g, code, hs, i + 1, voiced + [c]);
      ClipsBetweenStep(hs, i, voiced);
      SegmentRunStep(g, code, hs, i, |hs|);
      IssuesThenReaching(cmds, HighlightSteps(g, code, hs, i + 1, voiced + [c]),
                         SegmentRun(g, code, hs, i + 1, |hs|),
                         FinishCommands(g, |hs|, voiced + ClipsBetween(hs, i, |hs|)));
    }
  }

  /** The run from `i` is highlight `i`'s two commands, then the run from `i + 1`. */
  lemma SegmentRunStep(g: Generation, code: Size, hs: seq<ScriptCodeHighlight>, i: nat, j: nat)
    requires i < j && VoicedBetween(hs, i, j)
    ensures SegmentRun(g, code, hs, i, j)
            == SegmentCommands(g, code, Part(i), BlockOf(hs[i]), hs[i].voiceClip.value) + SegmentRun(g, code, hs, i + 1, j)
  {
  }

  /** Past the last highlight the loop issues only the finishing commands. */
  lemma HighlightStepsDone(g: Generation, code: Size, hs: seq<ScriptCodeHighlight>, voiced: seq<VoiceClip>)
    ensures FirstCrash(HighlightSteps(g, code, hs, |hs|, voiced)).None?
    ensures Reached(HighlightSteps(g, code, hs, |hs|, voiced))
            == SegmentRun(g, code, hs, |hs|, |hs|) + FinishCommands(g, |hs|, voiced + ClipsBetween(hs, |hs|, |hs|))
  {
    ReachedIssues(FinishCommands(g, |hs|, voiced));
    assert voiced + ClipsBetween(hs, |hs|, |hs|) == voiced;
  }

  /** One voiced iteration of the loop: its two commands, then the rest with the clip collected. */
  lemma HighlightStepsStep(g: Generation, code: Size, hs: seq<ScriptCodeHighlight>, i: nat, voiced: seq<VoiceClip>)
    requires i < |hs| && hs[i].voiceClip.Some?
    ensures HighlightSteps(g, code, hs, i, voiced)
            == Issues(SegmentCommands(g, code, Part(i), BlockOf(hs[i]), hs[i].voiceClip.value))
               + HighlightSteps(g, code, hs, i + 1, voiced + [hs[i].voiceClip.value])
  {
    VoicedSegmentSteps(g, code, Part(i), BlockOf(hs[i]), hs[i].voiceClip.value);
  }

  lemma ClipsBetweenStep(hs: seq<ScriptCodeHighlight>, i: nat, voiced: seq<VoiceClip>)
    requires i < |hs| && VoicedBetween(hs, i, |hs|)
    ensures voiced + [hs[i].voiceClip.value] + ClipsBetween(hs, i + 1, |hs|) == voiced + ClipsBetween(hs, i, |hs|)
  {
    assert [hs[i].voiceClip.value] + ClipsBetween(hs, i + 1, |hs|) == ClipsBetween(hs, i, |hs|);
  }

  /** With clips for `i` to `k` and none at `k`, the loop issues those segments
      and then only the frame of `k`, and raises for `k`. */
  lemma {:induction false} HighlightStepsMissing(g: Generation, code: Size, hs: seq<ScriptCodeHighlight>,
                                                i: nat, voiced: seq<VoiceClip>, k: nat)
    requires i <= k < |hs| && VoicedBetween(hs, i, k) && hs[k].voiceClip.None?
    ensures FirstCrash(HighlightSteps(g, code, hs, i, voiced)) == Some(MissingVoiceClip(Part(k)))
    ensures Reached(HighlightSteps(g, code, hs, i, voiced))
            == SegmentRun(g, code, hs, i, k) + [WriteFrame(FramePath(g, Part(k)), DrawFrame(g, code, BlockOf(hs[k])))]
    decreases k - i
  {
    if i == k {
      HighlightStepsCrash(g, code, hs, k, voiced);
    } else {
      var c := hs[i].voiceClip.value;
      var cmds := SegmentCommands(g, code, Part(i), BlockOf(hs[i]), c);
      HighlightStepsStep(g, code, hs, i, voiced);
      HighlightStepsMissing(g, code, hs, i + 1, voiced + [c], k);
      SegmentRunStep(g, code, hs, i, k);
      IssuesThenReaching(cmds, HighlightSteps(g, code, hs, i + 1, voiced + [c]),
                         SegmentRun(g, code, hs, i + 1, k),
                         [WriteFrame(FramePath(g, Part(k)), DrawFrame(g, code, BlockOf(hs[k])))]);
    }
  }

  /** At a highlight without a clip the loop writes its frame and raises. */
  lemma HighlightStepsCrash(g: Generation, code: Size, hs: seq<ScriptCodeHighlight>, k: nat, voiced: seq<VoiceClip>)
    requires k < |hs| && hs[k].voiceClip.None?
    ensures FirstCrash(HighlightSteps(g, code, hs, k, voiced)) == Some(MissingVoiceClip(Part(k)))
    ensures Reached(HighlightSteps(g, code, hs, k, voiced))
            == SegmentRun(g, code, hs, k, k) + [WriteFrame(FramePath(g, Part(k)), DrawFrame(g, code, BlockOf(hs[k])))]
  {
    var w := WriteFrame(FramePath(g, Part(k)), DrawFrame(g, code, BlockOf(hs[k])));
    var steps := SegmentSteps(g, code, Part(k), BlockOf(hs[k]), None);
    assert HighlightSteps(g, code, hs, k, voiced) == steps;
    assert steps == [Issue(w), Crash(Part(k))];
    assert steps[1..] == [Crash(Part(k))];
  }

  /** The finishing commands issue no encode. */
  lemma FinishHasNoEncode(g: Generation, n: nat, voiced: seq<VoiceClip>)
    ensures FilterMap(FinishCommands(g, n, voiced), EncodeOf) == []
  {
    var cs := FinishCommands(g, n, voiced);
    assert |cs| == 5;
    assert forall j :: 0 <= j < |cs| ==> !cs[j].EncodeStill?;
    FilterMapNone(cs, EncodeOf);
  }

  /** The intro clip when the generation narrates one: the clips collected before the loop. */
  function VoicedPrefix(g: Generation, script: Script): seq<VoiceClip>
    requires g.Current? ==> script.introVoiceClip.Some?
  {
    if g.Current? then [script.introVoiceClip.value] else []
  }

  /** What comes before the highlight loop: the code image, and the intro segment when voiced. */
  function Opening(g: Generation, script: Script, code: Size): seq<Command>
    requires g.Current? ==> script.introVoiceClip.Some?
  {
    [RenderCode(script.code, CodeImagePath(g))]
    + if g.Current? then SegmentCommands(g, code, Intro, IntroBlock, script.introVoiceClip.value) else []
  }

  /** With the intro voiced (or absent), the plan is the opening followed by the loop from 0. */
  lemma PlanOpening(g: Generation, script: Script, code: Size)
    requires g.Current? ==> script.introVoiceClip.Some?
    ensures Plan(g, script, code)
            == Issues(Opening(g, script, code)) + HighlightSteps(g, code, script.highlights, 0, VoicedPrefix(g, script))
  {
    var render := [RenderCode(script.code, CodeImagePath(g))];
    var loop := HighlightSteps(g, code, script.highlights, 0, VoicedPrefix(g, script));
    if g.Current? {
      var intro := SegmentCommands(g, code, Intro, IntroBlock, script.introVoiceClip.value);
      VoicedSegmentSteps(g, code, Intro, IntroBlock, script.introVoiceClip.value);
      IssuesAppend(render, intro);
      assert Plan(g, script, code) == Issues(render) + (Issues(intro) + loop);
    } else {
      assert Opening(g, script, code) == render;
    }
  }

  /** The first segment without a voice clip, where the plan stops. */
  function FirstMissing(g: Generation, script: Script): (s: Segment)
    requires !FullyVoiced(g, script)
    ensures s.Part? ==> s.index < |script.highlights| && script.highlights[s.index].voiceClip.None?
                        && VoicedBetween(script.highlights, 0, s.index)
  {
    if g.Current? && script.introVoiceClip.None? then Intro else Part(FirstUnvoiced(script.highlights, 0))
  }

  /** The clips before the loop and those of every highlight are the clips of every segment. */
  lemma CollectedClips(g: Generation, script: Script)
    requires FullyVoiced(g, script)
    ensures VoicedPrefix(g, script) + ClipsBetween(script.highlights, 0, |script.highlights|) == SegmentClips(g, script)
  {
  }

  /** A fully voiced plan never crashes, and issues the opening, every highlight's
      frame and encode in order, and the finishing commands over all the clips. */
  lemma PlanVoiced(g: Generation, script: Script, code: Size)
    requires FullyVoiced(g, script)
    ensures FirstCrash(Plan(g, script, code)).None?
    ensures Reached(Plan(g, script, code))
            == Opening(g, script, code) + SegmentRun(g, code, script.highlights, 0, |script.highlights|)
               + FinishCommands(g, |script.highlights|, SegmentClips(g, script))
  {
    var hs := script.highlights;
    var opening := Opening(g, script, code);
    var loop := HighlightSteps(g, code, hs, 0, VoicedPrefix(g, script));
    PlanOpening(g, script, code);
    HighlightStepsVoiced(g, code, hs, 0, VoicedPrefix(g, script));
    IssuesThen(opening, loop);
    CollectedClips(g, script);
  }

  /** Without an intro clip the current plan renders the code image and the intro
      frame, then raises for the intro. */
  lemma PlanMissingIntro(script: Script, code: Size)
    requires script.introVoiceClip.None?
    ensures FirstCrash(Plan(Current, script, code)) == Some(MissingVoiceClip(Intro))
    ensures Reached(Plan(Current, script, code))
            == [RenderCode(script.code, CodeImagePath(Current)),
                WriteFrame(FramePath(Current, Intro), DrawFrame(Current, code, IntroBlock))]
  {
    var render := [RenderCode(script.code, CodeImagePath(Current))];
    var intro := SegmentSteps(Current, code, Intro, IntroBlock, None);
    assert Plan(Current, script, code) == Issues(render) + intro;
    IssuesThen(render, intro);
    assert intro[1..] == [Crash(Intro)];
  }

  /** With the intro voiced (or absent) and highlight `k` the first without a clip,
      the plan issues the opening and the segments before `k`, writes the frame of
      `k`, and raises for `k`. */
  lemma PlanMissingHighlight(g: Generation, script: Script, code: Size)
    requires g.Current? ==> script.introVoiceClip.Some?
    requires !VoicedBetween(script.highlights, 0, |script.highlights|)
    ensures var k := FirstUnvoiced(script.highlights, 0);
            && FirstCrash(Plan(g, script, code)) == Some(MissingVoiceClip(Part(k)))
            && Reached(Plan(g, script, code))
               == Opening(g, script, code) + SegmentRun(g, code, script.highlights, 0, k)
                  + [WriteFrame(FramePath(g, Part(k)), DrawFrame(g, code, BlockOf(script.highlights[k])))]
  {
    var hs := script.highlights;
    var k := FirstUnvoiced(hs, 0);
    var loop := HighlightSteps(g, code, hs, 0, VoicedPrefix(g, script));
    PlanOpening(g, script, code);
    HighlightStepsMissing(g, code, hs, 0, VoicedPrefix(g, script), k);
    IssuesThen(Opening(g, script, code), loop);
  }

  /** The plan runs to the end exactly when every segment has a voice clip, and
      otherwise stops at the first segment without one. */
  lemma PlanCrash(g: Generation, script: Script, code: Size)
    ensures FirstCrash(Plan(g, script, code)).None? <==> FullyVoiced(g, script)
    ensures !FullyVoiced(g, script) ==> FirstCrash(Plan(g, script, code)) == Some(MissingVoiceClip(FirstMissing(g, script)))
  {
    if FullyVoiced(g, script) {
      PlanVoiced(g, script, code);
    } else if g.Current? && script.introVoiceClip.None? {
      PlanMissingIntro(script, code);
    } else {
      PlanMissingHighlight(g, script, code);
    }
  }

  /** `generate_video` of `src/video_processing.py`, returning the final path. */
  function CurrentGenerateVideo(script: Script, code: Size, fails: set<Command>): (a: Attempt<string>)
    ensures a.log <= Reached(Plan(Current, script, code))
    ensures a.result.Ok? <==> FullyVoiced(Current, script) && forall c :: c in Reached(Plan(Current, script, code)) ==> c !in fails
    ensures a.result.Ok? ==> a.result.value == "./assets/clips/final.mp4" && a.log == Reached(Plan(Current, script, code))
    ensures a.result.Err? && a.result.error.MissingVoiceClip? ==>
              !FullyVoiced(Current, script) && a.result.error.segment == FirstMissing(Current, script)
  {
    PlanCrash(Current, script, code);
    Execute(Plan(Current, script, code), fails, FinalPath(Current))
  }

  /** `generate_video` of `src/video_generation.py`, with the two `uuid4` names as parameters. */
  function LegacyGenerateVideo(script: Script, code: Size, audioName: string, videoName: string,
                               fails: set<Command>): (a: Attempt<string>)
    ensures var g := Legacy(audioName, videoName);
            && a.log <= Reached(Plan(g, script, code))
            && (a.result.Ok? <==> FullyVoiced(g, script) && forall c :: c in Reached(Plan(g, script, code)) ==> c !in fails)
            && (a.result.Ok? ==> a.result.value == "videos/" + videoName + ".mp4" && a.log == Reached(Plan(g, script, code)))
            && (a.result.Err? && a.result.error.MissingVoiceClip? ==>
                  !FullyVoiced(g, script) && a.result.error.segment == FirstMissing(g, script))
  {
    var g := Legacy(audioName, videoName);
    PlanCrash(g, script, code);
    Execute(Plan(g, script, code), fails, FinalPath(g))
  }

  /** The first highlight from `i` on without a voice clip, when there is one. */
  function FirstUnvoiced(hs: seq<ScriptCodeHighlight>, i: nat): (k: nat)
    requires i <= |hs| && !VoicedBetween(hs, i, |hs|)
    ensures i <= k < |hs| && hs[k].voiceClip.None? && VoicedBetween(hs, i, k)
    decreases |hs| - i
  {
    if hs[i].voiceClip.None? then i else FirstUnvoiced(hs, i + 1)
  }
}
